=== FILE: README.md ===
# Companion overlay: a Dafny model of its logic

Luna is a desktop companion built with Electron and React. It chats through
Google's Gemini models, keeps a bounded chat history on disk, reacts to
spoken commands, speaks its replies, and shows an animated avatar whose
state follows the conversation. This project models the decision logic of
that application and proves properties of it:

- the **voice-command classifier** (`VoiceControl`). It turns a recognised
  transcript into at most one command by trying ordered keyword rules, then
  the "open"/"launch" rule;
- the **bounded chat memory** (`MemoryStore`). It keeps the last 50 entries
  on save, swallows write failures, and recovers from a missing or corrupt
  file on load;
- the **response engine** (`AiEngine`), which covers:
  - initialisation from the API key;
  - lazy chat-session start;
  - the single-turn vision path;
  - streamed and plain chat turns that save the history once on success;
  - the fixed fallback strings.

  The engine's copy inside the main-process file is the same model with
  different strings (`Variant`);
- the main process's **`open-app` and `chat-request` handlers**
  (`MainProcess`);
- **time-of-day energy tiers** (`TimeAwareness`), the **mood store**
  (`MoodStore`) and the **mood-to-CSS-class map** (`MoodEngine`);
- renderer helpers:
  - the test console's bounded log, its `open:` parsing and its status
    badges (`TestConsole`);
  - voice selection and speak/stop in the speech hook (`Tts`);
  - the sprite avatar's state, sprite, mouth and indicators
    (`AvatarEnhanced`);
  - the Live2D avatar's lookups and availability gate (`LunaLive2D`);
  - Hiyori's random motion names (`HiyoriLive2D`).

Some modules stand for JavaScript built-ins the code relies on:

- `Strings`: `trim` with ECMAScript's whitespace set, `toLowerCase`,
  `includes`, `startsWith`, `replace` of the first match, `split`, decimal
  formatting, and truthiness of a possibly missing string;
- `JsArray`: `slice` with a negative start;
- `JsObject`: property lookup on an object literal, which also finds the
  members every object inherits from `Object.prototype`.

Everything outside the program is a parameter:

- The Gemini SDK's answers are an `Oracle` value.
- JSON encoding of the history is a `Codec` (an encode/decode pair).
- The history file is a `File` value.
- The current hour, `Math.random()` and timestamps are inputs.

## Model

| member | source | states |
|---|---|---|
| VoiceControl.Classify | src/renderer/src/hooks/useVoiceControl.js:43-57 | each keyword command is emitted exactly when one of its words occurs and no earlier rule's word does; `open:<name>` exactly when no keyword occurs, the transcript starts with "open " or "launch " and the extracted name is non-empty; nothing otherwise |
| VoiceControl.ClassifyIsFirstMatch | src/renderer/src/hooks/useVoiceControl.js:43-57 | the classifier agrees with a first-match reading of the rule table in priority order talk > work > normal > hide > vision, then the launch rule |
| VoiceControl.OnResult | src/renderer/src/hooks/useVoiceControl.js:37-57 | the stored last transcript is the raw one lower-cased and trimmed, so it neither starts nor ends with whitespace; the command emitted is the first match in the rule table; an `open:` command comes out exactly when no keyword occurs and the transcript starts with "open " or "launch " |
| VoiceControl.OnResultIgnoresCase | src/renderer/src/hooks/useVoiceControl.js:38 | transcripts that differ only in letter case have the same effect |
| VoiceControl.OnResultIgnoresPadding | src/renderer/src/hooks/useVoiceControl.js:38 | surrounding whitespace does not change the effect of a transcript |
| VoiceControl.NormalisedIsTrimmed | src/renderer/src/hooks/useVoiceControl.js:38 | a normalised transcript neither starts nor ends with whitespace |
| VoiceControl.AppNameNeverEmpty | src/renderer/src/hooks/useVoiceControl.js:55-56 | on a transcript that ends in a non-space character, removing the launch words always leaves a non-empty name |
| VoiceControl.LaunchRuleEmitsIff | src/renderer/src/hooks/useVoiceControl.js:53-56 | for any raw transcript, the classifier gives an `open:` command exactly when no keyword matches and the normalised transcript starts with "open " or "launch " |
| VoiceControl.AppNameAfterOpen | src/renderer/src/hooks/useVoiceControl.js:55 | "open " + X yields the trimmed X when X holds neither launch word |
| VoiceControl.AppNameAfterLaunch | src/renderer/src/hooks/useVoiceControl.js:55 | "launch " + X yields the trimmed X when X holds neither launch word |
| VoiceControl.NoKeywordLetters | src/renderer/src/hooks/useVoiceControl.js:43-52 | a transcript without any of the letters k c w f q r i h m l s v matches no keyword rule |
| VoiceControl.OpenPlainName | src/renderer/src/hooks/useVoiceControl.js:53-56 | "open " + a one-word name without keyword letters emits exactly `open:<name>` |
| VoiceControl.OpenNotepadExample | src/renderer/src/hooks/useVoiceControl.js:37-56 | the spoken "Open Notepad " emits `open:notepad` |
| VoiceControl.QuietAndFocusExample | src/renderer/src/hooks/useVoiceControl.js:45-46 | "please be quiet and focus" emits `work` |
| VoiceControl.BareLaunchWordIgnored | src/renderer/src/hooks/useVoiceControl.js:53-57 | a bare "open" or "launch" emits no open command |
| Strings.Trim | src/renderer/src/hooks/useVoiceControl.js:38 | the result is no longer than the input and neither starts nor ends with whitespace |
| Strings.ToLower | src/renderer/src/hooks/useVoiceControl.js:38 | the length is kept and each character is lower-cased on its own, A–Z to a–z |
| Strings.ReplaceFirst | src/renderer/src/hooks/useVoiceControl.js:55 | a string without the pattern is returned unchanged; otherwise its first occurrence, and only that one, is swapped for the replacement with the text on either side kept, changing the length by the difference of the two |
| Strings.ReplaceByItself | src/renderer/src/hooks/useVoiceControl.js:55 | replacing a pattern by itself gives back the string |
| Strings.ReplaceAtStart | src/renderer/src/hooks/useVoiceControl.js:55 | a pattern the string starts with is the occurrence replaced, so deleting "open " from "open " + X leaves X |
| Strings.Split | src/renderer/src/App.jsx:87 | there is always at least one part, and no part holds the separator |
| Strings.LowerTrimCommute | src/main/index.js:179 | lower-casing then trimming gives the same string as trimming then lower-casing, so the main process and the voice hook normalise alike |
| Strings.SplitAtFirst | src/renderer/src/App.jsx:87 | splitting at a separator gives the text before its first occurrence as the first part |
| Strings.SplitJoin | src/renderer/src/App.jsx:87 | joining the parts of a split with the separator gives back the original string |
| Strings.IndexOf | src/renderer/src/hooks/useVoiceControl.js:43-52 | the index found is the first position where the word occurs, and none means no occurrence |
| JsArray.SliceFrom | src/main/core/memory.js:28 | the result is a tail of the list; a negative start -n keeps min(n, length) entries, a non-negative start drops that many from the front |
| JsArray.LastN | src/main/core/memory.js:28 | `slice(-n)` keeps min(n, length) entries, and they are the list's tail |
| JsArray.ShortKeptWhole | src/main/core/memory.js:28 | a list no longer than n is kept whole |
| JsArray.LastNIdempotent | src/main/core/memory.js:28 | taking the last n twice is taking them once |
| JsArray.AppendAfterLastN | src/renderer/src/App.jsx:17 | keeping the last n and appending one gives at most n + 1 entries, ending with the new one after a tail of the old list |
| MemoryStore.New | src/main/core/memory.js:6-10 | a new store holds no history |
| MemoryStore.Save | src/main/core/memory.js:25-34 | a failed write leaves the history as it was; a successful one leaves the file holding the encoding of the new history |
| MemoryStore.Load | src/main/core/memory.js:12-23 | load returns the history it leaves in the store and never touches the file |
| MemoryStore.SaveKeepsLast | src/main/core/memory.js:28-30 | a successful save keeps exactly the last min(50, n) entries, in order, and writes what it keeps |
| MemoryStore.SaveBounded | src/main/core/memory.js:28-30 | after a successful save the history holds at most 50 entries |
| MemoryStore.SaveShortWhole | src/main/core/memory.js:28-30 | a history of at most 50 entries is saved whole |
| MemoryStore.SaveIdempotent | src/main/core/memory.js:28-30 | saving the history just saved changes neither the file nor the memory |
| MemoryStore.SaveFailureKeepsHistory | src/main/core/memory.js:25-33 | a failed write is swallowed and the in-memory history is unchanged |
| MemoryStore.LoadAbsentKeeps | src/main/core/memory.js:14-22 | with no file, load leaves the store unchanged |
| MemoryStore.FreshLoadEmpty | src/main/core/memory.js:6-23 | a fresh store with no file loads an empty history |
| MemoryStore.LoadCorruptResets | src/main/core/memory.js:18-22 | an unreadable or undecodable file resets the history to empty |
| MemoryStore.LoadKeepsAll | src/main/core/memory.js:15 | a decodable file is returned whole, with no truncation on load |
| MemoryStore.SaveThenLoad | src/main/core/memory.js:12-34 | when encode and decode are inverse, loading after a save returns the last min(50, n) entries of what was saved |
| MemoryStore.SaveThenReload | src/main/core/memory.js:12-34 | a new store over the saved file loads exactly the history the save kept |
| AiEngine.StartNewSession | src/main/core/aiEngine.js:39-56 | without a model nothing happens; with one, the stored history is loaded and the new session is seeded with it, or `startChat` throws and no session is set |
| AiEngine.Create | src/main/core/aiEngine.js:8-37 | the engine is initialised exactly when the key is usable and the client, model and first session start without throwing; an initialised engine's session is seeded with its memory; a bad key touches nothing |
| AiEngine.BadKeyUninitialised | src/main/core/aiEngine.js:14-15 | a missing, empty or placeholder key leaves the engine uninitialised |
| AiEngine.CreateValid | src/main/core/aiEngine.js:17-36 | an initialised engine has a model and a session seeded with the history loaded from the file |
| AiEngine.ConcatAppend | src/main/core/aiEngine.js:80-85 | concatenating chunks is compatible with splitting the chunk list anywhere |
| AiEngine.ConsumeStream | src/main/core/aiEngine.js:79-86 | the stream loop hands every chunk to the callback once, in order, and accumulates their concatenation; the text after any number of chunks is a prefix of the full reply |
| AiEngine.GenerateResponse | src/main/core/aiEngine.js:58-105 | an uninitialised engine returns its fixed string and changes nothing; history is saved exactly when a text turn on an initialised engine gets a reply, and it is the history read after the reply; chunks are sent only in streamed text turns |
| AiEngine.GenerateKeepsValid | src/main/core/aiEngine.js:58-105 | no call leaves an initialised engine without model or session |
| AiEngine.ValidEngineAnswers | src/main/core/aiEngine.js:75-100 | on a valid initialised engine, a text turn that gets a reply sends the message, returns the reply's text and saves the history |
| AiEngine.VisionIsStateless | src/main/core/aiEngine.js:64-73 | an image request changes no state, saves nothing, sends no chunk, and uses the default prompt for a falsy message |
| AiEngine.StreamingSendsEveryChunk | src/main/core/aiEngine.js:77-90 | a completed streamed turn sends every chunk in arrival order and returns their concatenation |
| AiEngine.SuccessSavesOnce | src/main/core/aiEngine.js:87-99 | a completed text turn, streamed or not, saves once, with the history read after the reply, and keeps the session |
| AiEngine.FailureFallsBack | src/main/core/aiEngine.js:101-104 | a backend failure returns the fixed fallback, saves nothing and leaves the engine as it was |
| AiEngine.LazySessionStart | src/main/core/aiEngine.js:75 | a missing session is started from the stored history before the message is sent; no engine built by `Create` reaches this state, so the branch is dead under the constructor |
| AiEngine.VariantsAgree | src/main/index.js:51-124 | the main process's copy sends the same chunks, saves the same history and ends with the same memory as the core engine; replies differ only in the fixed strings |
| AiEngine.TextTurnsAgree | src/main/index.js:99-122 | on the text path the two copies differ only in the disconnection string |
| MainProcess.OpenApp | src/main/index.js:177-192 | a known name starts its command and replies with the normalised name; other names get the "don't know" reply, which quotes the name as given; a non-string argument gets the catch reply |
| MainProcess.OpenAppAsWritten | src/main/index.js:184-191 | the handler with the lookup as written: a missing argument gets the catch reply |
| MainProcess.SevenNames | src/main/index.js:180-183 | exactly seven names are known: calculator, notepad, paint, explorer, cmd, spotify, browser |
| MainProcess.NoNameInherited | src/main/index.js:180-184 | no known name collides with a member inherited from `Object.prototype` |
| MainProcess.RoutingByEntry | src/main/index.js:186-187 | spotify and browser go to the external opener; the other five go to `exec` |
| MainProcess.OpenAppNormalises | src/main/index.js:179 | names equal after lower-casing and trimming launch the same thing, and something is launched exactly for a known name |
| MainProcess.OpenNotepadByName | src/main/index.js:177-189 | " Notepad" replies "Opening notepad..." and runs `notepad` |
| MainProcess.OpenAppAsWrittenDiffers | src/main/index.js:184-191 | as written, "Constructor" gets "I couldn't open it." instead of the "don't know" reply |
| MainProcess.AsWrittenInheritedFails | src/main/index.js:184-191 | as written, any name that normalises to an inherited member's name fails through the catch |
| MainProcess.OpenAppAgreesOffPrototype | src/main/index.js:177-192 | away from inherited names, the handler as written and the corrected one agree |
| MainProcess.Forward | src/main/index.js:208-210 | each chunk is forwarded as one `chat-chunk` message, unchanged and in order |
| MainProcess.ChatRequest | src/main/index.js:206-211 | with an image the engine is called without a callback and nothing is pushed; without one it is called with a streaming callback |
| MainProcess.ChatChunksForwarded | src/main/index.js:206-211 | the renderer receives exactly the chunks the engine sent, in order |
| MainProcess.ChatRequestStreams | src/main/index.js:208-210 | a completed text request pushes every chunk of the reply and returns their concatenation |
| MainProcess.AppEngine | src/main/index.js:236-237 | the application runs the main-process copy, initialised under the same conditions |
| TimeAwareness.EnergyLevel | src/main/logic/TimeAwareness.js:10-17 | for an hour of the day, the tier returned is the one whose window of the documented schedule holds the hour, and no other tier's does |
| TimeAwareness.EnergyBands | src/main/logic/TimeAwareness.js:10-17 | hours 6–11 are alert, 12–16 quiet, 17–20 warm, and 21–23 and 0–5 slow, each in both directions |
| TimeAwareness.EnergyMatchesSchedule | src/main/logic/TimeAwareness.js:2-17 | every hour of the day falls in exactly one window of the documented schedule, the one whose tier is returned |
| TimeAwareness.TimeBasedMessage | src/main/logic/TimeAwareness.js:19-23 | the message starts with "Energy: ", ends with the mood, and has the length of its parts |
| TimeAwareness.MessageRoundTrip | src/main/logic/TimeAwareness.js:19-23 | the tier and the mood can be read back from the message |
| TimeAwareness.MessageInjective | src/main/logic/TimeAwareness.js:19-23 | equal messages come from equal tiers and moods |
| MoodStore.InitialEnergyIsATier | src/renderer/src/store/moodStore.js:9-11 | the store starts idle, alert and neutral, and its energy is one of the time tiers |
| MoodStore.SetMood | src/renderer/src/store/moodStore.js:12 | the mood becomes the argument; energy and activity are kept |
| MoodStore.UpdateMood | src/renderer/src/store/moodStore.js:13 | the mood becomes the argument; energy and activity are kept |
| MoodStore.SetEnergyLevel | src/renderer/src/store/moodStore.js:14 | the energy becomes the argument; mood and activity are kept |
| MoodStore.UpdateEnergy | src/renderer/src/store/moodStore.js:15 | the energy becomes the argument; mood and activity are kept |
| MoodStore.SetActivity | src/renderer/src/store/moodStore.js:16 | the activity becomes the argument; mood and energy are kept |
| MoodStore.MoodSettersFrame | src/renderer/src/store/moodStore.js:12-13 | `setMood` and `updateMood` replace the mood only and act alike |
| MoodStore.EnergySettersFrame | src/renderer/src/store/moodStore.js:14-15 | `setEnergyLevel` and `updateEnergy` replace the energy only and act alike |
| MoodStore.ActivitySetterFrame | src/renderer/src/store/moodStore.js:16 | `setActivity` replaces the activity only |
| MoodStore.LastWriteWins | src/renderer/src/store/moodStore.js:12-16 | of two writes to a field the last wins, so each setter is idempotent |
| MoodStore.SettersCommute | src/renderer/src/store/moodStore.js:12-16 | setters of different fields commute |
| MoodStore.SettersReachAll | src/renderer/src/store/moodStore.js:12-16 | any state is reachable from any other by one call of each setter |
| MoodEngine.TableIsPrefixed | src/renderer/src/core/mood-engine.js:2-8 | every class is "luna-mood-" followed by its mood |
| MoodEngine.MoodColor | src/renderer/src/core/mood-engine.js:1-10 | the five moods map to "luna-mood-<mood>" and anything else to the neutral class; the result is always one of the five classes |
| MoodEngine.UnknownIsNeutral | src/renderer/src/core/mood-engine.js:9 | an unknown mood is coloured like neutral |
| MoodEngine.KnownMoodsDistinct | src/renderer/src/core/mood-engine.js:2-8 | distinct known moods get distinct classes |
| MoodEngine.MoodColorAsWritten | src/renderer/src/core/mood-engine.js:9 | as written, a known mood gets its class |
| MoodEngine.AsWrittenLeaksConstructor | src/renderer/src/core/mood-engine.js:9 | as written, "constructor" yields the inherited `Object` function rather than the neutral class |
| MoodEngine.AsWrittenAgrees | src/renderer/src/core/mood-engine.js:9 | away from inherited names, the mapping as written gives the corrected class |
| TestConsole.AddLog | src/renderer/src/App.jsx:15-19 | the new log holds min(20, n) earlier entries, which are the old log's tail, then the new entry |
| TestConsole.AddLogBounded | src/renderer/src/App.jsx:17 | after `addLog` the log holds at most 21 entries: the last 20 earlier ones in order, then the new one |
| TestConsole.AddLogKeepsShort | src/renderer/src/App.jsx:17 | a log of at most 20 entries loses nothing |
| TestConsole.HandleVoiceCommand | src/renderer/src/App.jsx:82-90 | every command is logged last as "Voice Command: " and the command, after a tail of the old log; it marks the voice test passed; `openApp` is called exactly for commands starting "open:" |
| TestConsole.CommandMarksVoice | src/renderer/src/App.jsx:83-84 | every command sets the voice status to true and leaves the other statuses as they were |
| TestConsole.OpenCommandRoundTrip | src/renderer/src/App.jsx:86-88 | the `open:` command the classifier emits for a name without ':' opens that name |
| TestConsole.OtherCommandsOpenNothing | src/renderer/src/App.jsx:86-89 | every other command the classifier emits opens nothing |
| TestConsole.ColonCutsName | src/renderer/src/App.jsx:86-87 | the name opened is the text between the first and second colon |
| TestConsole.StatusBadge | src/renderer/src/App.jsx:180-182 | unset, true and false show the pending, pass and fail icons, each exactly for its status |
| TestConsole.BadgeDistinguishesVerdicts | src/renderer/src/App.jsx:180-182 | two badges share a colour exactly when their verdicts agree |
| Tts.FirstPreferred | src/renderer/src/hooks/useTTS.js:15-19 | the index found is of the first voice whose name holds a preferred fragment; none means no voice does |
| Tts.SelectVoice | src/renderer/src/hooks/useTTS.js:14-22 | a voice is selected exactly when the list is non-empty, and it is one of the list |
| Tts.SelectionPrefersFirstMatch | src/renderer/src/hooks/useTTS.js:15-21 | the selection is preferred exactly when some voice is, and then it is the first preferred voice |
| Tts.FallsBackToFirst | src/renderer/src/hooks/useTTS.js:21-22 | without a preferred voice the first voice is selected |
| Tts.Speak | src/renderer/src/hooks/useTTS.js:29-51 | falsy text does nothing; otherwise the queue then holds only the new utterance; the speaking flag is not changed by the call |
| Tts.Cancel | src/renderer/src/hooks/useTTS.js:33 | `cancel` empties the queue and keeps the flag and the selected voice |
| Tts.OnStart | src/renderer/src/hooks/useTTS.js:43 | the utterance starting sets the flag and touches nothing else |
| Tts.OnEnd | src/renderer/src/hooks/useTTS.js:44-48 | the utterance ending or failing clears the flag and touches nothing else |
| Tts.Stop | src/renderer/src/hooks/useTTS.js:53-56 | after `stop` nothing is queued, the flag is false and the selected voice is kept |
| Tts.SpeakQueuesOnlyNewUtterance | src/renderer/src/hooks/useTTS.js:33-50 | the queued utterance carries the selected voice, pitch 1.1, rate 1.0 and volume 1.0 |
| Tts.SpeakReplaces | src/renderer/src/hooks/useTTS.js:29-51 | speaking twice leaves only the second utterance |
| Tts.StopSilences | src/renderer/src/hooks/useTTS.js:53-56 | `stop` always clears the flag, and stopping twice is stopping once |
| Tts.FlagFollowsEvents | src/renderer/src/hooks/useTTS.js:43-48 | the flag is set by the utterance's start and cleared by its end |
| AvatarEnhanced.DisplayedState | src/renderer/src/components/Avatar/LunaAvatarEnhanced.jsx:65-71 | while speaking the displayed state is talking; otherwise it is the prop |
| AvatarEnhanced.SpriteFor | src/renderer/src/components/Avatar/LunaAvatarEnhanced.jsx:75 | a known state shows its sprite and any other name the idle sprite |
| AvatarEnhanced.SpritesDistinct | src/renderer/src/components/Avatar/LunaAvatarEnhanced.jsx:38-46 | distinct states show distinct sprites |
| AvatarEnhanced.SevenStates | src/renderer/src/components/Avatar/LunaAvatarEnhanced.jsx:27-46 | the sprite map has an entry for each of the seven states and no other |
| AvatarEnhanced.SpeakingShowsTalking | src/renderer/src/components/Avatar/LunaAvatarEnhanced.jsx:65-75 | once both effects have run, while speaking the talking sprite shows, whatever the prop |
| AvatarEnhanced.SpriteForAsWritten | src/renderer/src/components/Avatar/LunaAvatarEnhanced.jsx:55-75 | as written, a name that is not an inherited member stores the corrected sprite; an inherited member is handed to the state setter, which calls it as an updater on the previous value |
| AvatarEnhanced.InheritedUpdate | src/renderer/src/components/Avatar/LunaAvatarEnhanced.jsx:75 | when an inherited member is called as an updater, the value stored is an image only for "constructor", and then it is the previous sprite |
| AvatarEnhanced.AsWrittenInheritedKeepsOrBreaks | src/renderer/src/components/Avatar/LunaAvatarEnhanced.jsx:75 | as written, an inherited name that leaves an image stored is "constructor", and that image is the previous sprite, so no inherited name ever shows a sprite of its own |
| AvatarEnhanced.AsWrittenShowsObjectString | src/renderer/src/components/Avatar/LunaAvatarEnhanced.jsx:75 | as written, the state "toString" stores the text "[object Undefined]" as the image, where the corrected lookup shows the idle sprite |
| AvatarEnhanced.AsWrittenValueOfThrows | src/renderer/src/components/Avatar/LunaAvatarEnhanced.jsx:75 | as written, the state "valueOf" makes the updater throw |
| AvatarEnhanced.MouthStep | src/renderer/src/components/Avatar/LunaAvatarEnhanced.jsx:105-122 | a prop change records the new prop; a tick keeps the prop and the interval and changes nothing when no interval runs; the prop turning false closes the mouth and stops the interval; each step keeps the mouth invariant |
| AvatarEnhanced.MouthStepKeepsInvariant | src/renderer/src/components/Avatar/LunaAvatarEnhanced.jsx:105-122 | each prop change or interval tick keeps the interval running exactly while speaking, with the mouth closed when silent |
| AvatarEnhanced.MouthClosedWhenSilent | src/renderer/src/components/Avatar/LunaAvatarEnhanced.jsx:105-122 | from mounting on, through any events, the mouth is closed whenever the avatar is not speaking |
| AvatarEnhanced.StopClosesMouth | src/renderer/src/components/Avatar/LunaAvatarEnhanced.jsx:110-111 | the prop turning false leaves the mouth closed |
| AvatarEnhanced.IndicatorsOf | src/renderer/src/components/Avatar/LunaAvatarEnhanced.jsx:240-243 | as rendered, the dots show exactly for the thinking `currentState`, the waves exactly for the listening one, the icon exactly while the prop says speaking |
| AvatarEnhanced.IndicatorsFor | src/renderer/src/components/Avatar/LunaAvatarEnhanced.jsx:240-243 | once the state effect has run, the dots show exactly when not speaking in the thinking state, the waves exactly when not speaking in the listening state, the icon exactly while speaking |
| AvatarEnhanced.IndicatorsExclusive | src/renderer/src/components/Avatar/LunaAvatarEnhanced.jsx:240-243 | once the state effect has run, thinking dots and listening waves show exactly for their state when not speaking; the speaking icon exactly while speaking; the dots never with the icon |
| AvatarEnhanced.MountRender | src/renderer/src/components/Avatar/LunaAvatarEnhanced.jsx:55-56 | the first render reads the `state` prop as first passed and the idle sprite |
| AvatarEnhanced.StateEffect | src/renderer/src/components/Avatar/LunaAvatarEnhanced.jsx:65-71 | the state effect sets `currentState` to the displayed state and leaves the sprite |
| AvatarEnhanced.SpriteEffect | src/renderer/src/components/Avatar/LunaAvatarEnhanced.jsx:74-76 | the sprite effect sets the sprite for the current state and leaves the state |
| AvatarEnhanced.SettledAfterEffects | src/renderer/src/components/Avatar/LunaAvatarEnhanced.jsx:55-76 | after both effects, from any earlier render, the sprite is the displayed state's and the indicator is the settled one |
| AvatarEnhanced.FirstCommitLags | src/renderer/src/components/Avatar/LunaAvatarEnhanced.jsx:55-71 | mounted thinking while speaking, the first commit shows the thinking dots with the speaking icon, and not the talking sprite |
| AvatarEnhanced.SpriteLagsStateEffect | src/renderer/src/components/Avatar/LunaAvatarEnhanced.jsx:65-76 | right after the state effect turns talking, another sprite can still show; the sprite effect then shows the talking sprite |
| LunaLive2D.MotionFor | src/renderer/src/components/Avatar/LunaLive2D.jsx:151 | a known state plays its motion; an unknown non-inherited name plays Idle |
| LunaLive2D.ExpressionFor | src/renderer/src/components/Avatar/LunaLive2D.jsx:152 | a known state shows its expression; an unknown non-inherited name shows normal |
| LunaLive2D.ExpressionFallbacks | src/renderer/src/components/Avatar/LunaLive2D.jsx:45-53 | talking, listening and walking have a motion but fall back to the normal expression |
| LunaLive2D.MotionsDistinct | src/renderer/src/components/Avatar/LunaLive2D.jsx:34-43 | distinct states with motions play distinct motions |
| LunaLive2D.Init | src/renderer/src/components/Avatar/LunaLive2D.jsx:69-130 | with Live2D unavailable the init effect changes nothing; a load marks the model held and loaded and leaves any earlier error in place; a failure leaves loading untouched and records an error exactly when its message is truthy |
| LunaLive2D.ErrorOutlivesRetry | src/renderer/src/components/Avatar/LunaLive2D.jsx:121-144 | a successful run after a failure with a message holds a loaded model but still shows the error fallback, because success never clears the error |
| LunaLive2D.FailureShownOnlyWithMessage | src/renderer/src/components/Avatar/LunaLive2D.jsx:126-129 | a failed load shows the error fallback exactly when the error has a truthy message, and otherwise stays on the loading view |
| LunaLive2D.MotionEffect | src/renderer/src/components/Avatar/LunaLive2D.jsx:147-167 | the motion effect acts exactly when a model is held and loaded |
| LunaLive2D.SpeakingEffect | src/renderer/src/components/Avatar/LunaLive2D.jsx:170-182 | the speaking effect acts exactly when a model is loaded, and sets the mouth to 0.8 exactly while speaking and to 0 exactly when not |
| LunaLive2D.Render | src/renderer/src/components/Avatar/LunaLive2D.jsx:236-271 | unavailable means the sprite fallback; otherwise the canvas shows exactly when loaded without error |
| LunaLive2D.UnavailableStaysOnSprites | src/renderer/src/components/Avatar/LunaLive2D.jsx:28-243 | with the switch off, whatever loading would do, the component renders sprites and neither effect acts |
| LunaLive2D.LoadedMouthFollowsSpeech | src/renderer/src/components/Avatar/LunaLive2D.jsx:170-182 | once loaded, the canvas shows and the mouth parameter follows the speaking prop |
| HiyoriLive2D.MotionIndex | src/renderer/src/components/Avatar/HiyoriLive2D.jsx:145 | the motion number is always between 1 and 10 |
| HiyoriLive2D.EveryIndexReachable | src/renderer/src/components/Avatar/HiyoriLive2D.jsx:145 | every motion number from 1 to 10 can be drawn |
| HiyoriLive2D.MotionName | src/renderer/src/components/Avatar/HiyoriLive2D.jsx:146 | every name starts "Hiyori_m" and continues with digits only, at least two; below 10 exactly two, the first a zero |
| HiyoriLive2D.MotionNameTwoDigits | src/renderer/src/components/Avatar/HiyoriLive2D.jsx:146 | every name is "Hiyori_m" and two digits that read back as the motion number |
| HiyoriLive2D.MotionNamesDistinct | src/renderer/src/components/Avatar/HiyoriLive2D.jsx:146 | distinct motion numbers give distinct names |
| HiyoriLive2D.PlayRandomMotion | src/renderer/src/components/Avatar/HiyoriLive2D.jsx:141-154 | without a model nothing happens; with one the drawn motion is requested, and the label changes only when the call succeeds |
| HiyoriLive2D.LabelOnlyOnSuccess | src/renderer/src/components/Avatar/HiyoriLive2D.jsx:148-153 | a successful call labels "Motion <n>"; a failed one leaves the state as it was |

## Left out

- File and network I/O, `app.getPath`, `dotenv` and logging are left out. The file is a `File` value, the key an argument, and the SDK an `Oracle`.
- JSON is a `Codec`. The round-trip lemmas assume that decode inverts encode on the saved history.
- MemoryStore.Load: a file whose JSON parses to something other than a list is treated as a decode failure. The source would keep a non-null non-list value as the history; `null` makes the log line at src/main/core/memory.js:16 throw, and the history resets to [], as in the model.
- Concurrency is left out: two overlapping `generateResponse` calls interleaving at their `await`s are not modelled. Each call is one step.
- The Gemini conversation format and the growth of the SDK's history are the SDK's business. The model only records what `getHistory` returns.
- The system prompt and model name passed to `getGenerativeModel` are left out. They are text handed to the SDK.
- AiEngine.GenerateResponse: a missing `message` on a text turn is sent as the empty string. What the SDK does with `undefined` is outside the model.
- Strings.ToLower lower-cases only A–Z. Other letters that JavaScript's `toLowerCase` maps are left as they are.
- The Electron window is left out: creation, click-through, dragging, saved position and screen capture for vision. The preload bridge is also left out. All of these are I/O.
- The speech-recognition lifecycle (start, auto-restart, errors) is left out. So is the browser's synthesiser playback; the `Tts` queue stands for what it holds.
- Voices arriving later through `onvoiceschanged` re-run the same selection, which is modelled once.
- Blinking, breathing, the random mouth interval period, mouse tracking, particles and all rendering are left out. They are timers, floating-point motion and markup.
- The other test-console actions and the timestamp text are left out. The timestamp is a parameter.
- Hiyori's autoplay at load (src/renderer/src/components/Avatar/HiyoriLive2D.jsx:103-112) is not separately modelled. It does exactly what `PlayRandomMotion` does with a model present.
- LunaLive2D.MotionFor, LunaLive2D.ExpressionFor: these are modelled as written, inherited names included, with no corrected version. The effect that uses them cannot run while the build switch is off.
- TestConsole.HandleVoiceCommand: `window.api?.openApp?.(name)` calls nothing when the preload bridge or its `openApp` is missing; the model records the name the call would receive and does not model the bridge being absent.
- AvatarEnhanced.InheritedUpdate: `Object(prev)` boxing a primitive is modelled as a `Boxed` value; only whether the stored value is an image matters to the sprite.
- AvatarEnhanced.IndicatorsFor, AvatarEnhanced.IndicatorsExclusive, AvatarEnhanced.SpeakingShowsTalking: these describe the render once the effects have settled. The commits before read the previous `currentState` and sprite, as `FirstCommitLags` and `SpriteLagsStateEffect` show.
- TimeAwareness.EnergyBands covers hours 0–23, the range `Date.getHours` returns.
- Demo pages, other avatar components, standalone scripts and `constitution.js` are not part of this model.
- Loading does not truncate the history file; the code truncates only on save, and the model follows the code (`MemoryStore.LoadKeepsAll`).

## Findings

| source | as written | input that shows it | evidently intended | confidence | as-written member | corrected member |
|---|---|---|---|---|---|---|
| src/renderer/src/core/mood-engine.js:9 | `mapping[mood] \|\| mapping.neutral` also finds members inherited from `Object.prototype` | mood "constructor" yields the `Object` function, not a class name | unknown moods get "luna-mood-neutral" | not executed | MoodEngine.AsWrittenLeaksConstructor | MoodEngine.MoodColor |
| src/main/index.js:184-191 | `appMap[target]` finds inherited members; they are truthy, and calling `startsWith` on them throws | app name "Constructor" replies "I couldn't open it." | an unknown name gets "I don't know how to open Constructor." | not executed | MainProcess.OpenAppAsWrittenDiffers | MainProcess.OpenApp |
| src/renderer/src/components/Avatar/LunaAvatarEnhanced.jsx:75 | `SPRITE_MAP[currentState] \|\| lunaIdle` finds inherited members and hands that function to the state setter, which React calls as an updater on the previous sprite | state "toString" stores "[object Undefined]", a broken image | an unknown state shows the idle sprite | not executed | AvatarEnhanced.AsWrittenShowsObjectString | AvatarEnhanced.SpriteFor |

=== FILE: ai_engine.dfy ===
/** The response controller (`AiEngine` in src/main/core/aiEngine.js, and
    its copy in src/main/index.js). The Gemini SDK is not modelled: what it
    answers (a vision reply, whether `startChat` throws, the chunks of a chat
    reply and the history read afterwards, whether the history write
    succeeds) arrives as an `Oracle` value, one per call. The engine's own
    branching around those answers is what is modelled. */
module AiEngine {

  import opened Optional
  import opened Strings
  import opened MemoryStore

  /** The two copies of the engine differ only in fixed strings and the
      output-token cap. */
  datatype Variant = CoreEngine | BundledEngine {

    /** Returned by an engine that never initialised. */
    function Uninitialised(): string {
      match this
      case CoreEngine => "I'm having trouble connecting to my brain right now..."
      case BundledEngine => "I'm having trouble connecting to my brain..."
    }

    /** Returned when any SDK call throws. */
    function Disconnected(): string {
      match this
      case CoreEngine => "I'm feeling a bit disconnected. Maybe check my API setup?"
      case BundledEngine => "I'm feeling a bit disconnected."
    }

    /** The prompt used for an image sent without a message. */
    function VisionDefault(): string {
      match this
      case CoreEngine => "What do you see in this image?"
      case BundledEngine => "What do you see?"
    }

    /** `generationConfig.maxOutputTokens` of a new chat session. */
    function MaxOutputTokens(): nat {
      match this
      case CoreEngine => 100
      case BundledEngine => 150
    }
  }

  /** The placeholder key shipped in the sample `.env`. */
  const PlaceholderKey: string := "your_api_key_here"

  /** A chat session as started: seeded with the loaded history. */
  datatype Session<E> = Session(seed: seq<E>, maxOutputTokens: nat)

  datatype Engine<E> = Engine(
    variant: Variant,
    initialized: bool,
    hasModel: bool,
    session: Option<Session<E>>,
    memory: Store<E>)

  /** What the SDK does during construction: whether creating the client and
      the model succeeds, and whether `startChat` succeeds. */
  datatype SdkSetup = SdkSetup(clientOk: bool, startChatOk: bool)

  /** The API key is present, non-empty and not the placeholder. */
  predicate KeyUsable(apiKey: Option<string>) {
    apiKey.Some? && apiKey.value != "" && apiKey.value != PlaceholderKey
  }

  /** The outcome of `startNewSession`: the engine after it, and whether
      `startChat` threw. */
  datatype Started<E> = Started(engine: Engine<E>, threw: bool)

  /** `startNewSession()`: with a model, load the stored history and start
      a chat seeded with it; without one, do nothing. */
  function StartNewSession<E>(e: Engine<E>, codec: Codec<E>, startChatOk: bool): (r: Started<E>)
    ensures !e.hasModel ==> r == Started(e, false)
    ensures e.hasModel && startChatOk ==>
      && !r.threw
      && r.engine.session == Some(Session(Load(e.memory, codec).returned, e.variant.MaxOutputTokens()))
    ensures e.hasModel && !startChatOk ==> r.threw && r.engine.session == e.session
    ensures r.engine.initialized == e.initialized && r.engine.hasModel == e.hasModel
    ensures r.engine.variant == e.variant
  {
    if !e.hasModel then Started(e, false)
    else
      var loaded := Load(e.memory, codec);
      var e1 := e.(memory := loaded.store);
      if startChatOk then
        Started(e1.(session := Some(Session(loaded.returned, e.variant.MaxOutputTokens()))), false)
      else Started(e1, true)
  }

  /** The constructor. */
  function Create<E>(v: Variant, apiKey: Option<string>, sdk: SdkSetup, file: File, codec: Codec<E>): (e: Engine<E>)
    ensures e.variant == v
    ensures e.initialized <==> KeyUsable(apiKey) && sdk.clientOk && sdk.startChatOk
    ensures e.initialized ==> e.session.Some? && e.session.value.seed == e.memory.history
    ensures !KeyUsable(apiKey) ==> e.memory == New(file) && e.session.None?
  {
    var e0 := Engine(v, false, false, None, New(file));
    if !KeyUsable(apiKey) || !sdk.clientOk then e0
    else
      var started := StartNewSession(e0.(hasModel := true), codec, sdk.startChatOk);
      if started.threw then started.engine
      else started.engine.(initialized := true)
  }

  /** An engine that reports itself initialised has a model and a session. */
  ghost predicate Valid<E>(e: Engine<E>) {
    e.initialized ==> e.hasModel && e.session.Some?
  }

  // ---------------------------------------------------------------------
  // generateResponse
  // ---------------------------------------------------------------------

  /** What `model.generateContent` gives back for an image: its text, or a
      thrown error. */
  datatype VisionAnswer = Seen(text: string) | VisionFailed

  /** What a chat turn gives back. `Replied`: the reply's chunks (for a
      non-streamed turn, the parts whose concatenation `response.text()`
      returns) and the history `getHistory` reads afterwards. `Broke`: some
      SDK call threw after `delivered` chunks had arrived. */
  datatype ChatAnswer<E> = Replied(chunks: seq<string>, history: seq<E>) | Broke(delivered: seq<string>)

  /** Everything the SDK and the file system answer during one call. */
  datatype Oracle<E> = Oracle(
    vision: VisionAnswer,
    startChatOk: bool,
    chat: ChatAnswer<E>,
    write: WriteOutcome)

  /** What the engine asked the backend for. */
  datatype Request = NoRequest | VisionRequest(prompt: string) | ChatTurn(message: string, streamed: bool)

  /** The outcome of one call: the engine afterwards, the returned string,
      the chunks passed to `onChunk` in order, the request made, and the
      history handed to `memory.save`, if it was called. */
  datatype Turn<E> = Turn(
    engine: Engine<E>,
    reply: string,
    chunksSent: seq<string>,
    request: Request,
    saved: Option<seq<E>>)

  /** All chunks joined in order. */
  function Concat(chunks: seq<string>): string
    decreases |chunks|
  {
    if |chunks| == 0 then "" else Concat(chunks[..|chunks| - 1]) + chunks[|chunks| - 1]
  }

  /** Joining distributes over splitting the chunk sequence. */
  lemma {:induction false} ConcatAppend(a: seq<string>, b: seq<string>)
    ensures Concat(a + b) == Concat(a) + Concat(b)
    decreases |b|
  {
    if |b| == 0 {
      assert a + b == a;
    } else {
      var b' := b[..|b| - 1];
      assert (a + b)[..|a + b| - 1] == a + b';
      assert (a + b)[|a + b| - 1] == b[|b| - 1];
      ConcatAppend(a, b');
    }
  }

  /** The streaming loop: each chunk is appended to the running text and
      passed to `onChunk` as it arrives. */
  method ConsumeStream(chunks: seq<string>) returns (fullText: string, sent: seq<string>)
    ensures sent == chunks
    ensures fullText == Concat(chunks)
    ensures forall k :: 0 <= k <= |chunks| ==> Concat(chunks[..k]) <= fullText
  {
    fullText := "";
    sent := [];
    var i := 0;
    while i < |chunks|
      invariant 0 <= i <= |chunks|
      invariant sent == chunks[..i]
      invariant fullText == Concat(chunks[..i])
    {
      assert chunks[..i + 1][..i] == chunks[..i];
      fullText := fullText + chunks[i];
      sent := sent + [chunks[i]];
      i := i + 1;
    }
    assert chunks[..i] == chunks;
    forall k | 0 <= k <= |chunks|
      ensures Concat(chunks[..k]) <= fullText
    {
      ConcatAppend(chunks[..k], chunks[k..]);
      assert chunks[..k] + chunks[k..] == chunks;
    }
  }

  /** `generateResponse(message, imageBase64, onChunk)`; `streaming` says
      whether an `onChunk` callback was passed. */
  function GenerateResponse<E>(
    e: Engine<E>, codec: Codec<E>, message: Option<string>, image: Option<string>, streaming: bool, o: Oracle<E>
  ): (t: Turn<E>)
    ensures t.engine.variant == e.variant && t.engine.initialized == e.initialized
    ensures t.engine.hasModel == e.hasModel
    ensures !e.initialized ==> t == Turn(e, e.variant.Uninitialised(), [], NoRequest, None)
    ensures t.saved.Some? <==> e.initialized && !Truthy(image) && t.request.ChatTurn? && o.chat.Replied?
    ensures t.saved.Some? ==> t.saved.value == o.chat.history
    ensures t.chunksSent != [] ==> streaming && t.request.ChatTurn?
  {
    if !e.initialized then Turn(e, e.variant.Uninitialised(), [], NoRequest, None)
    else if Truthy(image) then
      var prompt := if Truthy(message) then message.value else e.variant.VisionDefault();
      var reply := match o.vision
        case Seen(text) => text
        case VisionFailed => e.variant.Disconnected();
      Turn(e, reply, [], VisionRequest(prompt), None)
    else
      var started := if e.session.None? then StartNewSession(e, codec, o.startChatOk) else Started(e, false);
      var e1 := started.engine;
      if started.threw || e1.session.None? then
        // `startChat` threw, or there is no model and so no session to call.
        Turn(e1, e.variant.Disconnected(), [], NoRequest, None)
      else
        var request := ChatTurn(message.GetOr(""), streaming);
        match o.chat
        case Broke(delivered) =>
          Turn(e1, e.variant.Disconnected(), if streaming then delivered else [], request, None)
        case Replied(chunks, history) =>
          var memory := Save(e1.memory, codec, history, o.write);
          Turn(e1.(memory := memory), Concat(chunks), if streaming then chunks else [], request, Some(history))
  }

  // ---------------------------------------------------------------------
  // Properties
  // ---------------------------------------------------------------------

  /** A missing or placeholder key leaves the engine uninitialised. */
  lemma BadKeyUninitialised<E>(v: Variant, apiKey: Option<string>, sdk: SdkSetup, file: File, codec: Codec<E>)
    requires apiKey == None || apiKey == Some("") || apiKey == Some(PlaceholderKey)
    ensures !Create(v, apiKey, sdk, file, codec).initialized
  {
  }

  /** Construction yields a valid engine, and an initialised one holds a
      session seeded with the history loaded from the file. */
  lemma CreateValid<E>(v: Variant, apiKey: Option<string>, sdk: SdkSetup, file: File, codec: Codec<E>)
    ensures var e := Create(v, apiKey, sdk, file, codec);
      && Valid(e)
      && (e.initialized ==> e.session == Some(Session(Load(New<E>(file), codec).returned, v.MaxOutputTokens())))
  {
  }

  /** Every call keeps the engine valid. */
  lemma GenerateKeepsValid<E>(
    e: Engine<E>, codec: Codec<E>, message: Option<string>, image: Option<string>, streaming: bool, o: Oracle<E>)
    requires Valid(e)
    ensures Valid(GenerateResponse(e, codec, message, image, streaming, o).engine)
  {
  }

  /** On a valid engine the only failure is the backend's: an initialised
      engine that gets a reply returns it. */
  lemma ValidEngineAnswers<E>(
    e: Engine<E>, codec: Codec<E>, message: Option<string>, image: Option<string>, streaming: bool, o: Oracle<E>)
    requires Valid(e) && e.initialized && !Truthy(image) && o.chat.Replied?
    ensures var t := GenerateResponse(e, codec, message, image, streaming, o);
      && t.request == ChatTurn(message.GetOr(""), streaming)
      && t.reply == Concat(o.chat.chunks)
      && t.saved == Some(o.chat.history)
  {
  }

  /** An image request is one stateless call: the session and the memory are
      untouched, nothing is saved, no chunk is sent, and a falsy message is
      replaced by the default prompt. */
  lemma VisionIsStateless<E>(
    e: Engine<E>, codec: Codec<E>, message: Option<string>, image: Option<string>, streaming: bool, o: Oracle<E>)
    requires e.initialized && Truthy(image)
    ensures var t := GenerateResponse(e, codec, message, image, streaming, o);
      && t.engine == e && t.saved == None && t.chunksSent == []
      && t.request == VisionRequest(if Truthy(message) then message.value else e.variant.VisionDefault())
      && t.reply == (if o.vision.Seen? then o.vision.text else e.variant.Disconnected())
  {
  }

  /** A streamed turn that completes sends each chunk once, in arrival
      order, and returns their concatenation. */
  lemma StreamingSendsEveryChunk<E>(
    e: Engine<E>, codec: Codec<E>, message: Option<string>, o: Oracle<E>)
    requires e.initialized && e.session.Some? && o.chat.Replied?
    ensures var t := GenerateResponse(e, codec, message, None, true, o);
      && t.chunksSent == o.chat.chunks
      && t.reply == Concat(t.chunksSent)
  {
  }

  /** A completed text turn, streamed or not, saves the history read after
      the reply exactly once, through `save`. */
  lemma SuccessSavesOnce<E>(
    e: Engine<E>, codec: Codec<E>, message: Option<string>, streaming: bool, o: Oracle<E>)
    requires e.initialized && e.session.Some? && o.chat.Replied?
    ensures var t := GenerateResponse(e, codec, message, None, streaming, o);
      && t.saved == Some(o.chat.history)
      && t.engine.memory == Save(e.memory, codec, o.chat.history, o.write)
      && t.engine.session == e.session
  {
  }

  /** A backend failure returns the fixed fallback and saves nothing; the
      chunks that did arrive were already sent. */
  lemma FailureFallsBack<E>(
    e: Engine<E>, codec: Codec<E>, message: Option<string>, streaming: bool, o: Oracle<E>)
    requires e.initialized && e.session.Some? && o.chat.Broke?
    ensures var t := GenerateResponse(e, codec, message, None, streaming, o);
      && t.reply == e.variant.Disconnected()
      && t.saved == None
      && t.engine == e
      && t.chunksSent == (if streaming then o.chat.delivered else [])
  {
  }

  /** A missing session is started, from the stored history, before the
      message is sent. No engine built by `Create` reaches this state:
      `CreateValid` and `GenerateKeepsValid` keep an initialised engine's
      session present, so the branch at aiEngine.js:75 is dead code under
      the constructor, and this lemma describes it only for an engine
      state supplied directly. */
  lemma LazySessionStart<E>(
    e: Engine<E>, codec: Codec<E>, message: Option<string>, streaming: bool, o: Oracle<E>)
    requires e.initialized && e.hasModel && e.session.None? && o.startChatOk
    ensures var t := GenerateResponse(e, codec, message, None, streaming, o);
      && t.request == ChatTurn(message.GetOr(""), streaming)
      && t.engine.session == Some(Session(Load(e.memory, codec).returned, e.variant.MaxOutputTokens()))
  {
  }

  /** The two copies of the engine behave alike: given the same state and the
      same backend answers they send the same chunks, save the same history,
      end in the same memory, and their replies differ only where one of the
      fixed strings is returned. */
  lemma VariantsAgree<E>(
    e: Engine<E>, codec: Codec<E>, message: Option<string>, image: Option<string>, streaming: bool, o: Oracle<E>)
    requires e.variant == CoreEngine
    ensures var t1 := GenerateResponse(e, codec, message, image, streaming, o);
      var t2 := GenerateResponse(e.(variant := BundledEngine), codec, message, image, streaming, o);
      && t1.chunksSent == t2.chunksSent
      && t1.saved == t2.saved
      && t1.engine.memory == t2.engine.memory
      && (t1.reply == t2.reply
          || (t1.reply == CoreEngine.Uninitialised() && t2.reply == BundledEngine.Uninitialised())
          || (t1.reply == CoreEngine.Disconnected() && t2.reply == BundledEngine.Disconnected()))
  {
    if e.initialized && !Truthy(image) {
      TextTurnsAgree(e, codec, message, streaming, o);
    }
  }

  /** The text path of `VariantsAgree`: starting a session and the chat
      turn do not depend on the variant beyond its strings. */
  lemma TextTurnsAgree<E>(e: Engine<E>, codec: Codec<E>, message: Option<string>, streaming: bool, o: Oracle<E>)
    requires e.variant == CoreEngine && e.initialized
    ensures var t1 := GenerateResponse(e, codec, message, None, streaming, o);
      var t2 := GenerateResponse(e.(variant := BundledEngine), codec, message, None, streaming, o);
      && t1.chunksSent == t2.chunksSent
      && t1.saved == t2.saved
      && t1.engine.memory == t2.engine.memory
      && (t1.reply == t2.reply || (t1.reply == CoreEngine.Disconnected() && t2.reply == BundledEngine.Disconnected()))
  {
    var e2 := e.(variant := BundledEngine);
    var s1 := if e.session.None? then StartNewSession(e, codec, o.startChatOk) else Started(e, false);
    var s2 := if e.session.None? then StartNewSession(e2, codec, o.startChatOk) else Started(e2, false);
    assert s1.threw == s2.threw && s1.engine.session.None? == s2.engine.session.None?;
    assert s1.engine.memory == s2.engine.memory;
  }
}

=== FILE: avatar_enhanced.dfy ===
/** The sprite avatar's state logic
    (src/renderer/src/components/Avatar/LunaAvatarEnhanced.jsx): which state
    is displayed, which sprite shows it, the talking mouth, and the state
    indicators. Blinking, breathing and mouse tracking are timers and
    floating-point motion and are not modelled. */
module AvatarEnhanced {

  import opened Optional
  import opened JsObject

  /** The seven avatar states, by name. */
  const Idle: string := "idle"
  const Talking: string := "talking"
  const Listening: string := "listening"
  const Thinking: string := "thinking"
  const Happy: string := "happy"
  const Sleepy: string := "sleepy"
  const Walking: string := "walking"

  /** The sprite images. */
  datatype Sprite = IdleSprite | TalkingSprite | ListeningSprite | ThinkingSprite
                  | HappySprite | SleepySprite | WalkingSprite

  const SpriteMap: map<string, Sprite> := map[
    Idle := IdleSprite, Talking := TalkingSprite, Listening := ListeningSprite,
    Thinking := ThinkingSprite, Happy := HappySprite, Sleepy := SleepySprite,
    Walking := WalkingSprite
  ]

  /** The state shown: talking while speech is playing, otherwise the
      `state` prop. */
  function DisplayedState(state: string, isSpeaking: bool): (d: string)
    ensures isSpeaking ==> d == Talking
    ensures !isSpeaking ==> d == state
  {
    if isSpeaking then Talking else state
  }

  /** The sprite for a displayed state, looking up only the map's own
      entries: the state's sprite, or the idle sprite for any other name. */
  function SpriteFor(state: string): (s: Sprite)
    ensures state in SpriteMap ==> s == SpriteMap[state]
    ensures state !in SpriteMap ==> s == IdleSprite
  {
    match GetOwn(SpriteMap, state)
    case Own(sprite) => sprite
    case _ => IdleSprite
  }

  /** Every state has a sprite of its own: distinct states show distinct
      sprites, and every sprite belongs to exactly one state. */
  lemma SpritesDistinct(a: string, b: string)
    requires a in SpriteMap && b in SpriteMap && a != b
    ensures SpriteFor(a) != SpriteFor(b)
  {
  }

  lemma SevenStates()
    ensures SpriteMap.Keys == {Idle, Talking, Listening, Thinking, Happy, Sleepy, Walking}
  {
  }

  /** While speaking the talking sprite shows, whatever the prop says. */
  lemma SpeakingShowsTalking(state: string)
    ensures SpriteFor(DisplayedState(state, true)) == TalkingSprite
  {
  }

  /** What the sprite state can hold. The sprite images are URL strings;
      the other values only arise from the lookup as written: a string, a
      boolean, a primitive boxed by `Object(…)`, or the prototype object. */
  datatype Shown = Image(sprite: Sprite) | Text(text: string) | Flag(flag: bool)
                 | Boxed(inner: Shown) | PrototypeObject

  /** Whether a value is an object rather than a primitive. */
  predicate IsObject(v: Shown) {
    v.Boxed? || v.PrototypeObject?
  }

  /** The sprite an `<img>` shows for the stored value: a sprite's URL, boxed
      or not, shows that sprite; any other value is a broken image. */
  function ImageShown(v: Shown): Option<Sprite> {
    match v
    case Image(sprite) => Some(sprite)
    case Boxed(inner) => if inner.Image? then Some(inner.sprite) else None
    case _ => None
  }

  /** The outcome of `setCurrentSprite(x)`: the value stored, or an error
      thrown while the state updates. */
  datatype SpriteUpdate = Stored(shown: Shown) | UpdaterThrew

  /** An inherited member handed to the state setter. React calls a function
      argument as an updater on the previous state, with no receiver:
      `Object(prev)` boxes a primitive and returns an object unchanged;
      `Object.prototype.toString` without a receiver gives
      "[object Undefined]"; `isPrototypeOf` answers false for a primitive
      and otherwise needs a receiver; the other methods need a receiver and
      throw. `__proto__` is not a function and is stored as it is. */
  function InheritedUpdate(name: string, prev: Shown): (r: SpriteUpdate)
    requires name in PrototypeKeys
    ensures r.Stored? && ImageShown(r.shown).Some? ==>
      name == "constructor" && ImageShown(r.shown) == ImageShown(prev)
  {
    if name == "constructor" then Stored(if IsObject(prev) then prev else Boxed(prev))
    else if name == "toString" then Stored(Text("[object Undefined]"))
    else if name == "isPrototypeOf" then (if IsObject(prev) then UpdaterThrew else Stored(Flag(false)))
    else if name == "__proto__" then Stored(PrototypeObject)
    else UpdaterThrew
  }

  /** The sprite effect as written: `setCurrentSprite(SPRITE_MAP[currentState]
      || lunaIdle)`, given the sprite state before it runs. */
  function SpriteForAsWritten(state: string, prev: Shown): (r: SpriteUpdate)
    ensures state !in PrototypeKeys ==> r == Stored(Image(SpriteFor(state)))
    ensures state in PrototypeKeys ==> r == InheritedUpdate(state, prev)
  {
    match Get(SpriteMap, state)
    case Own(sprite) => Stored(Image(sprite))
    case Inherited(name) => InheritedUpdate(name, prev)
    case Undefined => Stored(Image(IdleSprite))
  }

  /** As written, an inherited name never shows a sprite of its own: at best
      ("constructor") the previous sprite stays on screen, boxed. */
  lemma AsWrittenInheritedKeepsOrBreaks(state: string, prev: Shown, s: Sprite)
    requires state in PrototypeKeys
    requires SpriteForAsWritten(state, prev).Stored?
    requires ImageShown(SpriteForAsWritten(state, prev).shown) == Some(s)
    ensures state == "constructor" && ImageShown(prev) == Some(s)
  {
    assert state !in SpriteMap;
  }

  /** As written, the state "toString" stores the string "[object Undefined]",
      a broken image, where the idle sprite belongs. */
  lemma AsWrittenShowsObjectString(state: string, prev: Shown)
    requires state == "toString"
    ensures SpriteForAsWritten(DisplayedState(state, false), prev) == Stored(Text("[object Undefined]"))
    ensures ImageShown(SpriteForAsWritten(DisplayedState(state, false), prev).shown) == None
    ensures SpriteFor(DisplayedState(state, false)) == IdleSprite
  {
    assert state !in SpriteMap;
  }

  /** As written, the state "valueOf" makes the update throw. */
  lemma AsWrittenValueOfThrows(state: string, prev: Shown)
    requires state == "valueOf"
    ensures SpriteForAsWritten(state, prev) == UpdaterThrew
  {
    assert state !in SpriteMap;
  }

  // ---------------------------------------------------------------------
  // Mouth
  // ---------------------------------------------------------------------

  /** The mouth: whether it is drawn open, and whether the toggling interval
      is running; `speaking` is the prop the effect last ran for. */
  datatype Mouth = Mouth(speaking: bool, open: bool, toggling: bool)

  const MouthAtMount: Mouth := Mouth(false, false, false)

  /** What can happen to the mouth: the `isSpeaking` prop takes a value, or
      the interval fires. */
  datatype MouthEvent = SpeakingProp(isSpeaking: bool) | IntervalTick

  /** The mouth effect and its interval. The effect re-runs only when the
      prop changes: starting speech starts the interval, stopping it clears
      the interval and closes the mouth. */
  function MouthStep(m: Mouth, e: MouthEvent): (r: Mouth)
    ensures e.SpeakingProp? ==> r.speaking == e.isSpeaking
    ensures e.IntervalTick? ==> r.speaking == m.speaking && r.toggling == m.toggling
    ensures e.IntervalTick? && !m.toggling ==> r == m
    ensures e == SpeakingProp(false) && MouthInvariant(m) ==> !r.open && !r.toggling
    ensures MouthInvariant(m) ==> MouthInvariant(r)
  {
    match e
    case SpeakingProp(b) =>
      if b == m.speaking then m
      else if b then Mouth(true, m.open, true)
      else Mouth(false, false, false)
    case IntervalTick =>
      if m.toggling then m.(open := !m.open) else m
  }

  function MouthRun(m: Mouth, events: seq<MouthEvent>): Mouth
    decreases |events|
  {
    if |events| == 0 then m else MouthRun(MouthStep(m, events[0]), events[1..])
  }

  /** The interval runs exactly while speaking, and the mouth is closed
      whenever the avatar is not speaking. */
  ghost predicate MouthInvariant(m: Mouth) {
    m.toggling == m.speaking && (!m.speaking ==> !m.open)
  }

  lemma MouthStepKeepsInvariant(m: Mouth, e: MouthEvent)
    requires MouthInvariant(m)
    ensures MouthInvariant(MouthStep(m, e))
  {
  }

  lemma MountSatisfiesInvariant()
    ensures MouthInvariant(MouthAtMount)
  {
  }

  /** From mounting on, through any sequence of prop changes and interval
      ticks, the mouth is closed whenever the avatar is not speaking. */
  lemma {:induction false} MouthClosedWhenSilent(m: Mouth, events: seq<MouthEvent>)
    requires MouthInvariant(m)
    ensures MouthInvariant(MouthRun(m, events))
    ensures !MouthRun(m, events).speaking ==> !MouthRun(m, events).open
    decreases |events|
  {
    if |events| > 0 {
      MouthStepKeepsInvariant(m, events[0]);
      MouthClosedWhenSilent(MouthStep(m, events[0]), events[1..]);
    }
  }

  /** Stopping speech closes the mouth at once; when the prop was already
      false the effect does not re-run, and the invariant says the mouth was
      closed already. */
  lemma StopClosesMouth(m: Mouth)
    requires MouthInvariant(m)
    ensures !MouthStep(m, SpeakingProp(false)).open
  {
  }

  // ---------------------------------------------------------------------
  // Indicators
  // ---------------------------------------------------------------------

  datatype Indicators = Indicators(thinkingDots: bool, listeningWaves: bool, speakingIcon: bool)

  /** The state indicator as rendered: the dots and the waves read the
      `currentState` state variable, the icon reads the `isSpeaking` prop. */
  function IndicatorsOf(currentState: string, isSpeaking: bool): (i: Indicators)
    ensures i.thinkingDots <==> currentState == Thinking
    ensures i.listeningWaves <==> currentState == Listening
    ensures i.speakingIcon <==> isSpeaking
  {
    Indicators(currentState == Thinking, currentState == Listening, isSpeaking)
  }

  /** The state indicator once the state effect has run, so that
      `currentState` is the displayed state. */
  function IndicatorsFor(state: string, isSpeaking: bool): (i: Indicators)
    ensures i.thinkingDots <==> !isSpeaking && state == Thinking
    ensures i.listeningWaves <==> !isSpeaking && state == Listening
    ensures i.speakingIcon <==> isSpeaking
  {
    IndicatorsOf(DisplayedState(state, isSpeaking), isSpeaking)
  }

  /** Once the state effect has run, the thinking dots show exactly when not
      speaking in the thinking state, so never while speaking; likewise the
      listening waves; the speaking icon shows exactly while speaking. */
  lemma IndicatorsExclusive(state: string, isSpeaking: bool)
    ensures var i := IndicatorsFor(state, isSpeaking);
      && (i.thinkingDots <==> !isSpeaking && state == Thinking)
      && (i.listeningWaves <==> !isSpeaking && state == Listening)
      && (i.speakingIcon <==> isSpeaking)
      && !(i.thinkingDots && i.speakingIcon)
  {
  }

  // ---------------------------------------------------------------------
  // Commits and effects
  // ---------------------------------------------------------------------

  /** What a commit renders from: the `currentState` and `currentSprite`
      state variables. Both are set by effects, which run after the commit
      that rendered with the old values. */
  datatype Rendered = Rendered(currentState: string, sprite: Sprite)

  /** The first render: `currentState` is the `state` prop as first passed,
      and the sprite is idle. */
  function MountRender(state: string): (v: Rendered)
    ensures v.currentState == state && v.sprite == IdleSprite
  {
    Rendered(state, IdleSprite)
  }

  /** The state effect: `currentState` becomes the displayed state; the
      sprite is left for the next effect. */
  function StateEffect(v: Rendered, state: string, isSpeaking: bool): (w: Rendered)
    ensures w.currentState == DisplayedState(state, isSpeaking)
    ensures w.sprite == v.sprite
  {
    v.(currentState := DisplayedState(state, isSpeaking))
  }

  /** The sprite effect, run on the commit after `currentState` changed. */
  function SpriteEffect(v: Rendered): (w: Rendered)
    ensures w.currentState == v.currentState
    ensures w.sprite == SpriteFor(v.currentState)
  {
    v.(sprite := SpriteFor(v.currentState))
  }

  /** After both effects, whatever was rendered before, the sprite is the
      one for the displayed state and the indicator is `IndicatorsFor`. */
  lemma SettledAfterEffects(v: Rendered, state: string, isSpeaking: bool)
    ensures var w := SpriteEffect(StateEffect(v, state, isSpeaking));
      && w.sprite == SpriteFor(DisplayedState(state, isSpeaking))
      && IndicatorsOf(w.currentState, isSpeaking) == IndicatorsFor(state, isSpeaking)
  {
  }

  /** Before the effects, the render reads stale state: mounted while
      speaking in the thinking state, the first commit shows the thinking
      dots together with the speaking icon, and the idle sprite rather than
      the talking one. */
  lemma FirstCommitLags()
    ensures var v := MountRender(Thinking);
      && IndicatorsOf(v.currentState, true).thinkingDots
      && IndicatorsOf(v.currentState, true).speakingIcon
      && v.sprite != SpriteFor(DisplayedState(Thinking, true))
  {
  }

  /** The sprite lags the state effect by one more commit: right after the
      state effect the talking state can still be drawn with another
      sprite. */
  lemma SpriteLagsStateEffect(v: Rendered)
    requires v.sprite != TalkingSprite
    ensures StateEffect(v, v.currentState, true).currentState == Talking
    ensures StateEffect(v, v.currentState, true).sprite != TalkingSprite
    ensures SpriteEffect(StateEffect(v, v.currentState, true)).sprite == TalkingSprite
  {
  }
}

=== FILE: hiyori_live2d.dfy ===
/** Random motions of the Hiyori Live2D model
    (src/renderer/src/components/Avatar/HiyoriLive2D.jsx): drawing a motion
    number, formatting its two-digit motion name, and updating the label.
    `Math.random()` is a parameter; the Live2D runtime's `motion` call is an
    input that succeeds or throws. */
module HiyoriLive2D {

  import opened Optional
  import opened Strings

  /** How many motions the model ships. */
  const MotionCount: nat := 10

  const MotionPrefix: string := "Hiyori_m"

  /** `Math.floor(random * 10) + 1` for a `random` in [0, 1). */
  function MotionIndex(random: real): (i: int)
    requires 0.0 <= random < 1.0
    ensures 1 <= i <= MotionCount
  {
    (random * 10.0).Floor + 1
  }

  /** Every motion number can be drawn. */
  lemma EveryIndexReachable(i: int)
    requires 1 <= i <= MotionCount
    ensures MotionIndex((i - 1) as real / 10.0) == i
  {
  }

  /** The motion's name: a leading zero below 10, none from 10 on. */
  function MotionName(i: nat): (r: string)
    ensures |r| >= |MotionPrefix| + 2
    ensures r[..|MotionPrefix|] == MotionPrefix
    ensures i < 10 ==> |r| == |MotionPrefix| + 2 && r[|MotionPrefix|] == '0'
    ensures forall k :: |MotionPrefix| <= k < |r| ==> IsDigit(r[k])
  {
    if i < 10 then MotionPrefix + "0" + NatToString(i) else MotionPrefix + NatToString(i)
  }

  /** Two decimal digits in `s`, read as a number. */
  function TwoDigitValue(s: string): int
    requires |s| == 2 && IsDigit(s[0]) && IsDigit(s[1])
  {
    DigitValue(s[0]) * 10 + DigitValue(s[1])
  }

  lemma DigitRoundTrip(d: nat)
    requires d < 10
    ensures IsDigit(DigitChar(d)) && DigitValue(DigitChar(d)) == d
  {
  }

  lemma DigitCharZero()
    ensures DigitChar(0) == '0'
  {
  }

  /** Every name the component can ask for is the prefix and exactly two
      digits, and those digits read back as the motion number. */
  lemma {:induction false} MotionNameTwoDigits(i: nat)
    requires 1 <= i <= MotionCount
    ensures |MotionName(i)| == |MotionPrefix| + 2
    ensures MotionName(i)[..|MotionPrefix|] == MotionPrefix
    ensures var d := MotionName(i)[|MotionPrefix|..];
      IsDigit(d[0]) && IsDigit(d[1]) && TwoDigitValue(d) == i
  {
    var n := MotionName(i);
    if i < 10 {
      DigitRoundTrip(i);
      DigitRoundTrip(0);
      DigitCharZero();
      assert NatToString(i) == [DigitChar(i)];
      assert n[|MotionPrefix|..] == [DigitChar(0), DigitChar(i)];
    } else {
      DigitRoundTrip(1);
      DigitRoundTrip(0);
      assert NatToString(i) == [DigitChar(1), DigitChar(0)];
      assert n[|MotionPrefix|..] == [DigitChar(1), DigitChar(0)];
    }
  }

  /** Hence distinct motion numbers name distinct motions. */
  lemma MotionNamesDistinct(i: nat, j: nat)
    requires 1 <= i <= MotionCount && 1 <= j <= MotionCount && MotionName(i) == MotionName(j)
    ensures i == j
  {
    MotionNameTwoDigits(i);
    MotionNameTwoDigits(j);
  }

  // ---------------------------------------------------------------------
  // playRandomMotion
  // ---------------------------------------------------------------------

  /** The component's state: whether a model is held, and the label of the
      motion last started. */
  datatype Player = Player(hasModel: bool, currentMotion: string)

  /** The outcome: the new state, and the motion name asked for, if any. */
  datatype Played = Played(player: Player, requested: Option<string>)

  /** `playRandomMotion()`: nothing without a model; otherwise ask for a
      random motion, and relabel only when the call did not throw. */
  function PlayRandomMotion(p: Player, random: real, motionOk: bool): (r: Played)
    requires 0.0 <= random < 1.0
    ensures !p.hasModel ==> r == Played(p, None)
    ensures p.hasModel ==> r.requested == Some(MotionName(MotionIndex(random)))
    ensures r.player.hasModel == p.hasModel
    ensures r.player.currentMotion != p.currentMotion ==> p.hasModel && motionOk
  {
    if !p.hasModel then Played(p, None)
    else
      var i := MotionIndex(random);
      var name := MotionName(i);
      if motionOk then Played(p.(currentMotion := "Motion " + NatToString(i)), Some(name))
      else Played(p, Some(name))
  }

  /** A successful call labels the motion with its number; a failed one
      keeps the old label. */
  lemma LabelOnlyOnSuccess(p: Player, random: real, motionOk: bool)
    requires 0.0 <= random < 1.0 && p.hasModel
    ensures var r := PlayRandomMotion(p, random, motionOk);
      && (motionOk ==> r.player.currentMotion == "Motion " + NatToString(MotionIndex(random)))
      && (!motionOk ==> r.player == p)
  {
  }
}

=== FILE: js_array.dfy ===
/** The one piece of JavaScript array behaviour the model leans on:
    `Array.prototype.slice(start)` with the start counted from the end when
    it is negative. */
module JsArray {

  /** `s.slice(start)`: a negative start counts back from the end and is
      clamped at 0; a start past the end gives the empty array. */
  function SliceFrom<T>(s: seq<T>, start: int): (r: seq<T>)
    ensures IsSuffix(r, s)
    ensures start < 0 ==> |r| == Min(-start, |s|)
    ensures 0 <= start ==> |r| == |s| - Min(start, |s|)
  {
    var from := if start < 0 then (if |s| + start < 0 then 0 else |s| + start)
                else (if start > |s| then |s| else start);
    s[from..]
  }

  function Min(a: nat, b: nat): nat {
    if a <= b then a else b
  }

  /** `s` ends with `t`. */
  ghost predicate IsSuffix<T>(t: seq<T>, s: seq<T>) {
    |t| <= |s| && s[|s| - |t|..] == t
  }

  /** `s.slice(-n)` for a positive `n` is the last `min(n, |s|)` elements of
      `s`, in their original order. */
  lemma LastN<T>(s: seq<T>, n: nat)
    requires n > 0
    ensures |SliceFrom(s, -(n as int))| == Min(n, |s|)
    ensures IsSuffix(SliceFrom(s, -(n as int)), s)
  {
  }

  /** A sequence already no longer than `n` is kept whole. */
  lemma ShortKeptWhole<T>(s: seq<T>, n: nat)
    requires 0 < n && |s| <= n
    ensures SliceFrom(s, -(n as int)) == s
  {
  }

  /** Slicing the last `n` twice is slicing once. */
  lemma LastNIdempotent<T>(s: seq<T>, n: nat)
    requires n > 0
    ensures SliceFrom(SliceFrom(s, -(n as int)), -(n as int)) == SliceFrom(s, -(n as int))
  {
    LastN(s, n);
    ShortKeptWhole(SliceFrom(s, -(n as int)), n);
  }

  /** Appending one element after keeping the last `n`: the result keeps the
      last `n` old elements, then the new one. */
  lemma AppendAfterLastN<T>(s: seq<T>, n: nat, x: T)
    requires n > 0
    ensures var r := SliceFrom(s, -(n as int)) + [x];
      && |r| == Min(n, |s|) + 1 && |r| <= n + 1
      && r[|r| - 1] == x
      && IsSuffix(r[..|r| - 1], s)
  {
    LastN(s, n);
    var r := SliceFrom(s, -(n as int)) + [x];
    assert r[..|r| - 1] == SliceFrom(s, -(n as int));
  }
}

=== FILE: js_object.dfy ===
/** Property lookup on a JavaScript object literal, `table[key]`. Several
    lookup tables in the program are plain object literals read with a key
    the caller chose, so besides the table's own entries a key can hit one
    of the members every object inherits from `Object.prototype`. */
module JsObject {

  /** The names every object literal inherits from `Object.prototype`. Each
      of them holds a function, except `__proto__`, which holds the
      prototype object itself; all of them are truthy and none is a
      string. */
  const PrototypeKeys: set<string> := {
    "constructor", "hasOwnProperty", "isPrototypeOf", "propertyIsEnumerable",
    "toLocaleString", "toString", "valueOf", "__proto__",
    "__defineGetter__", "__defineSetter__", "__lookupGetter__", "__lookupSetter__"
  }

  /** What `table[key]` yields: an own entry, an inherited member (named by
      its key), or `undefined`. */
  datatype Property<V> = Own(value: V) | Inherited(name: string) | Undefined

  /** `table[key]` for an object literal whose own entries are `own`. */
  function Get<V>(own: map<string, V>, key: string): (r: Property<V>)
    ensures r.Own? <==> key in own
    ensures r.Own? ==> r.value == own[key]
    ensures r.Inherited? <==> key !in own && key in PrototypeKeys
    ensures r.Inherited? ==> r.name == key
  {
    if key in own then Own(own[key])
    else if key in PrototypeKeys then Inherited(key)
    else Undefined
  }

  /** What `table[key] || fallback` evaluates to, for a table whose own
      values are all non-empty strings (so truthy): the own string, the
      inherited member (truthy, so `||` keeps it), or the fallback. */
  datatype Value = Str(s: string) | Member(name: string)

  function OrElse(p: Property<string>, fallback: string): (r: Value)
    requires p.Own? ==> p.value != ""
    ensures p.Undefined? ==> r == Str(fallback)
    ensures r.Member? <==> p.Inherited?
  {
    match p
    case Own(v) => Str(v)
    case Inherited(name) => Member(name)
    case Undefined => Str(fallback)
  }

  /** Looking up only own entries: what a lookup guarded by
      `Object.hasOwn(table, key)` (or on a `Map`) gives. */
  function GetOwn<V>(own: map<string, V>, key: string): (r: Property<V>)
    ensures r.Inherited? == false
    ensures r.Own? <==> key in own
    ensures r.Own? ==> r.value == own[key]
  {
    if key in own then Own(own[key]) else Undefined
  }

  /** The two lookups differ exactly on inherited names the table does not
      itself define. */
  lemma GetOwnDiffers<V>(own: map<string, V>, key: string)
    ensures Get(own, key) != GetOwn(own, key) <==> key !in own && key in PrototypeKeys
  {
  }
}

=== FILE: luna_live2d.dfy ===
/** The Live2D avatar's control logic
    (src/renderer/src/components/Avatar/LunaLive2D.jsx): the state-to-motion
    and state-to-expression lookups, the speaking parameter, and the
    availability gate that keeps the component on its sprite fallback. The
    PIXI and Live2D runtime is not modelled; whether its loading succeeds is
    an input. */
module LunaLive2D {

  import opened Optional
  import opened Strings
  import opened JsObject

  /** The build-time switch; the model files are not shipped, so it is off. */
  const Live2DAvailable: bool := false

  const MotionMap: map<string, string> := map[
    "idle" := "Idle", "talking" := "Talk", "happy" := "Happy", "sad" := "Sad",
    "thinking" := "Think", "sleepy" := "Sleepy", "listening" := "Listen", "walking" := "Walk"
  ]

  const ExpressionMap: map<string, string> := map[
    "idle" := "normal", "happy" := "happy", "sad" := "sad", "angry" := "angry",
    "surprised" := "surprised", "thinking" := "thinking", "sleepy" := "sleepy"
  ]

  /** `MOTION_MAP[state] || 'Idle'`. */
  function MotionFor(state: string): (r: Value)
    ensures state in MotionMap ==> r == Str(MotionMap[state])
    ensures state !in MotionMap && state !in PrototypeKeys ==> r == Str("Idle")
  {
    OrElse(Get(MotionMap, state), "Idle")
  }

  /** `EXPRESSION_MAP[state] || 'normal'`. */
  function ExpressionFor(state: string): (r: Value)
    ensures state in ExpressionMap ==> r == Str(ExpressionMap[state])
    ensures state !in ExpressionMap && state !in PrototypeKeys ==> r == Str("normal")
  {
    OrElse(Get(ExpressionMap, state), "normal")
  }

  /** The states with a motion but no expression fall back to the neutral
      expression. */
  lemma ExpressionFallbacks(state: string)
    requires state == "talking" || state == "listening" || state == "walking"
    ensures ExpressionFor(state) == Str("normal")
  {
    assert state !in ExpressionMap;
  }

  /** Every state with a motion entry has a motion of its own. */
  lemma MotionsDistinct(a: string, b: string)
    requires a in MotionMap && b in MotionMap && a != b
    ensures MotionFor(a) != MotionFor(b)
  {
  }

  // ---------------------------------------------------------------------
  // The component
  // ---------------------------------------------------------------------

  /** The component's state: whether the model finished loading, whether
      the `error` state is truthy, and whether a model object is held. */
  datatype Component = Component(isLoaded: bool, failed: bool, hasModel: bool)

  const AtMount: Component := Component(false, false, false)

  /** What loading the runtime and the model does, when it is attempted:
      it succeeds, or something throws, carrying the error's `message`
      (missing when a non-`Error` value is thrown). */
  datatype LoadOutcome = LoadSucceeded | LoadFailed(message: Option<string>)

  /** The init effect: it returns at once unless Live2D is available;
      otherwise loading either succeeds, holding the model and marking it
      loaded while leaving any earlier error in place, or fails and stores
      the error's message as the error state, which counts as an error only
      when that message is truthy. The effect runs again whenever its
      callbacks change identity, so `c` need not be the mounted state. */
  function Init(available: bool, c: Component, outcome: LoadOutcome): (r: Component)
    ensures !available ==> r == c
    ensures available && outcome.LoadSucceeded? ==> r.isLoaded && r.hasModel && r.failed == c.failed
    ensures available && outcome.LoadFailed? ==>
      r.isLoaded == c.isLoaded && r.hasModel == c.hasModel && (r.failed <==> Truthy(outcome.message))
  {
    if !available then c
    else match outcome
      case LoadSucceeded => c.(isLoaded := true, hasModel := true)
      case LoadFailed(message) => c.(failed := Truthy(message))
  }

  /** The motion effect: with a loaded model, play the state's motion and
      expression; otherwise do nothing. */
  function MotionEffect(c: Component, state: string): (r: Option<(Value, Value)>)
    ensures r.Some? <==> c.hasModel && c.isLoaded
  {
    if !c.hasModel || !c.isLoaded then None else Some((MotionFor(state), ExpressionFor(state)))
  }

  /** The speaking effect: with a loaded model, the mouth-open parameter it
      sets. */
  function SpeakingEffect(c: Component, isSpeaking: bool): (r: Option<real>)
    ensures r.Some? <==> c.hasModel && c.isLoaded
    ensures r.Some? ==> (r.value == 0.8 <==> isSpeaking) && (r.value == 0.0 <==> !isSpeaking)
  {
    if !c.hasModel || !c.isLoaded then None
    else if isSpeaking then Some(0.8) else Some(0.0)
  }

  /** What the component renders. */
  datatype View = SpriteFallback | Loading | ErrorFallback | Canvas

  function Render(available: bool, c: Component): (v: View)
    ensures !available ==> v == SpriteFallback
    ensures available ==> (v == Canvas <==> c.isLoaded && !c.failed)
  {
    if !available then SpriteFallback
    else if !c.isLoaded && !c.failed then Loading
    else if c.failed then ErrorFallback
    else Canvas
  }

  /** With Live2D switched off, whatever loading would do, the component
      stays as mounted: it shows the sprite fallback, and neither the motion
      nor the speaking effect does anything. */
  lemma UnavailableStaysOnSprites(outcome: LoadOutcome, state: string, isSpeaking: bool)
    ensures var c := Init(Live2DAvailable, AtMount, outcome);
      && Render(Live2DAvailable, c) == SpriteFallback
      && MotionEffect(c, state) == None
      && SpeakingEffect(c, isSpeaking) == None
  {
  }

  /** Once loaded, the speaking parameter follows the prop. */
  lemma LoadedMouthFollowsSpeech(state: string)
    ensures var c := Init(true, AtMount, LoadSucceeded);
      && Render(true, c) == Canvas
      && SpeakingEffect(c, true) == Some(0.8)
      && SpeakingEffect(c, false) == Some(0.0)
      && MotionEffect(c, state) == Some((MotionFor(state), ExpressionFor(state)))
  {
  }

  /** A failed load shows the error fallback only when the error carries a
      non-empty message; a failure without one leaves the component on its
      loading screen. */
  lemma FailureShownOnlyWithMessage(message: Option<string>)
    ensures var c := Init(true, AtMount, LoadFailed(message));
      && (Render(true, c) == ErrorFallback <==> Truthy(message))
      && (Render(true, c) == Loading <==> !Truthy(message))
  {
  }

  /** A success does not clear an earlier error: after a failure with a
      message, a later successful run still shows the error fallback,
      though the model is held and loaded underneath. */
  lemma ErrorOutlivesRetry(message: string)
    requires message != []
    ensures var c := Init(true, Init(true, AtMount, LoadFailed(Some(message))), LoadSucceeded);
      && c.isLoaded && c.hasModel
      && Render(true, c) == ErrorFallback
  {
  }
}

=== FILE: main_process.dfy ===
/** The two IPC handlers of the main process that carry logic
    (src/main/index.js): `open-app`, which resolves a spoken application
    name through a fixed table, and `chat-request`, which routes a chat
    message to the engine. The engine the application builds is the copy
    defined in the same file. Window creation, dragging, click-through and
    screen capture are not modelled. */
module MainProcess {

  import opened Optional
  import opened Strings
  import opened JsObject
  import opened MemoryStore
  import opened AiEngine

  // ---------------------------------------------------------------------
  // open-app
  // ---------------------------------------------------------------------

  /** The applications `open-app` knows, by normalised name. */
  const AppTable: map<string, string> := map[
    "calculator" := "calc", "notepad" := "notepad", "paint" := "mspaint",
    "explorer" := "explorer", "cmd" := "start cmd", "spotify" := "spotify:",
    "browser" := "https://google.com"
  ]

  /** What the handler starts: nothing, a URL handed to the shell's external
      opener, or a command handed to `exec`. */
  datatype Launch = NoLaunch | External(url: string) | Exec(command: string)

  datatype Opened = Opened(reply: string, launch: Launch)

  /** The reply when nothing could be started because the handler threw. */
  const CouldNotOpen: string := "I couldn't open it."

  /** The name as looked up: lower-cased, then trimmed. */
  function Target(appName: string): string {
    Trim(ToLower(appName))
  }

  /** URLs and `spotify:` links go to the external opener. */
  predicate OpensExternally(command: string) {
    StartsWith(command, "http") || StartsWith(command, "spotify:")
  }

  /** Start the table command the way the handler does. */
  function Start(command: string): (l: Launch)
    ensures l != NoLaunch
  {
    if OpensExternally(command) then External(command) else Exec(command)
  }

  /** The handler as it should behave: a known name starts its command and
      replies with the normalised name; any other string gets the "don't
      know" reply quoting the name as given; a non-string argument (`None`)
      makes `toLowerCase` throw, which is caught. */
  function OpenApp(appName: Option<string>): (r: Opened)
    ensures appName.None? ==> r == Opened(CouldNotOpen, NoLaunch)
    ensures appName.Some? && Target(appName.value) in AppTable ==>
      r.reply == "Opening " + Target(appName.value) + "..."
      && r.launch == Start(AppTable[Target(appName.value)])
    ensures appName.Some? && Target(appName.value) !in AppTable ==>
      r.reply == "I don't know how to open " + appName.value + "." && r.launch == NoLaunch
  {
    match appName
    case None => Opened(CouldNotOpen, NoLaunch)
    case Some(name) =>
      var target := Target(name);
      match GetOwn(AppTable, target)
      case Own(command) => Opened("Opening " + target + "...", Start(command))
      case _ => Opened("I don't know how to open " + name + ".", NoLaunch)
  }

  /** The handler as written: `appMap[target]` also finds the members every
      object inherits. Those are truthy, so the handler takes the hit branch,
      and calling `startsWith` on a function or on the prototype object
      throws; the catch replies "I couldn't open it.". */
  function OpenAppAsWritten(appName: Option<string>): (r: Opened)
    ensures appName.None? ==> r == Opened(CouldNotOpen, NoLaunch)
  {
    match appName
    case None => Opened(CouldNotOpen, NoLaunch)
    case Some(name) =>
      var target := Target(name);
      match Get(AppTable, target)
      case Own(command) => Opened("Opening " + target + "...", Start(command))
      case Inherited(_) => Opened(CouldNotOpen, NoLaunch)
      case Undefined => Opened("I don't know how to open " + name + ".", NoLaunch)
  }

  /** The table holds exactly seven names. */
  lemma SevenNames()
    ensures |AppTable| == 7
    ensures AppTable.Keys == {"calculator", "notepad", "paint", "explorer", "cmd", "spotify", "browser"}
  {
    assert |AppTable| == 7;
  }

  /** No table name is an inherited member. */
  lemma NoNameInherited(name: string)
    requires name in AppTable
    ensures name !in PrototypeKeys
  {
  }

  /** Only the spotify and browser entries go to the external opener; the
      other five are run with `exec`. */
  lemma RoutingByEntry(name: string)
    requires name in AppTable
    ensures OpensExternally(AppTable[name]) <==> name == "spotify" || name == "browser"
  {
    if name == "spotify" {
      assert StartsWith(AppTable[name], "spotify:");
    } else if name == "browser" {
      assert StartsWith(AppTable[name], "http");
    } else {
      var c := AppTable[name];
      assert c in {"calc", "notepad", "mspaint", "explorer", "start cmd"};
      assert |c| > 1 && c[0] != 'h' && (c[0] != 's' || c[1] != 'p');
    }
  }

  /** Case and surrounding whitespace do not change what is started, and a
      start happens exactly for the seven names. */
  lemma OpenAppNormalises(a: string, b: string)
    requires Target(a) == Target(b)
    ensures OpenApp(Some(a)).launch == OpenApp(Some(b)).launch
    ensures OpenApp(Some(a)).launch != NoLaunch <==> Target(a) in AppTable
  {
  }

  /** " Notepad" starts notepad with `exec`. */
  lemma OpenNotepadByName(name: string)
    requires name == " Notepad"
    ensures OpenApp(Some(name)) == Opened("Opening notepad...", Exec("notepad"))
  {
    NotepadTarget(name);
    NotepadEntry("notepad");
  }

  lemma NotepadEntry(target: string)
    requires target == "notepad"
    ensures target in AppTable && Start(AppTable[target]) == Exec("notepad")
  {
    RoutingByEntry(target);
  }

  lemma NotepadTarget(name: string)
    requires name == " Notepad"
    ensures Target(name) == "notepad"
  {
    var l := ToLower(name);
    assert l == " notepad" by {
      assert forall i :: 0 <= i < |name| ==> LowerChar(name[i]) == " notepad"[i];
    }
    assert l == " " + "notepad" + [];
    TrimUnique(l, " ", "notepad", []);
  }

  /** Where the written handler and the intended one part: a name that
      normalises to an inherited member. */
  lemma OpenAppAsWrittenDiffers(name: string)
    requires name == "Constructor"
    ensures OpenAppAsWritten(Some(name)).reply == CouldNotOpen
    ensures OpenApp(Some(name)).reply == "I don't know how to open Constructor."
  {
    ConstructorTarget(name);
  }

  lemma ConstructorTarget(name: string)
    requires name == "Constructor"
    ensures Target(name) == "constructor"
  {
    var l := ToLower(name);
    assert l == "constructor" by {
      assert forall i :: 0 <= i < |name| ==> LowerChar(name[i]) == "constructor"[i];
    }
    TrimUnique(l, [], l, []);
  }

  /** As written, every name that normalises to an inherited member ends in
      the catch, so it gets "I couldn't open it." instead of the "don't
      know" reply. */
  lemma AsWrittenInheritedFails(name: string)
    requires Target(name) in PrototypeKeys
    ensures OpenAppAsWritten(Some(name)) == Opened(CouldNotOpen, NoLaunch)
    ensures OpenApp(Some(name)) == Opened("I don't know how to open " + name + ".", NoLaunch)
  {
    if Target(name) in AppTable {
      NoNameInherited(Target(name));
    }
  }

  /** The two agree on every name outside the inherited members. */
  lemma OpenAppAgreesOffPrototype(appName: Option<string>)
    requires appName.Some? ==> Target(appName.value) !in PrototypeKeys
    ensures OpenAppAsWritten(appName) == OpenApp(appName)
  {
  }

  // ---------------------------------------------------------------------
  // chat-request
  // ---------------------------------------------------------------------

  /** A message sent to the renderer. */
  datatype IpcMessage = ChatChunk(chunk: string)

  /** The handler's result: the engine's turn and the messages it pushed to
      the renderer while it ran. */
  datatype ChatReply<E> = ChatReply(turn: Turn<E>, pushed: seq<IpcMessage>)

  /** The chunk callback: each chunk forwarded as one `chat-chunk` message. */
  function Forward(chunks: seq<string>): (m: seq<IpcMessage>)
    ensures |m| == |chunks|
    ensures forall i :: 0 <= i < |m| ==> m[i] == ChatChunk(chunks[i])
  {
    seq(|chunks|, i requires 0 <= i < |chunks| => ChatChunk(chunks[i]))
  }

  /** `chat-request`: an image goes to the engine without a callback; a
      message alone goes with one that forwards each chunk. */
  function ChatRequest<E>(
    e: Engine<E>, codec: Codec<E>, message: Option<string>, image: Option<string>, o: Oracle<E>
  ): (r: ChatReply<E>)
    ensures Truthy(image) ==>
      r.turn == GenerateResponse(e, codec, message, image, false, o) && r.pushed == []
    ensures !Truthy(image) ==>
      r.turn == GenerateResponse(e, codec, message, None, true, o)
  {
    if Truthy(image) then ChatReply(GenerateResponse(e, codec, message, image, false, o), [])
    else
      var t := GenerateResponse(e, codec, message, None, true, o);
      ChatReply(t, Forward(t.chunksSent))
  }

  /** Every chunk the engine sends reaches the renderer unchanged and in
      order, and an image request pushes nothing. */
  lemma ChatChunksForwarded<E>(
    e: Engine<E>, codec: Codec<E>, message: Option<string>, image: Option<string>, o: Oracle<E>)
    ensures var r := ChatRequest(e, codec, message, image, o);
      && |r.pushed| == |r.turn.chunksSent|
      && (forall i :: 0 <= i < |r.pushed| ==> r.pushed[i].chunk == r.turn.chunksSent[i])
      && (Truthy(image) ==> r.pushed == [])
  {
    var r := ChatRequest(e, codec, message, image, o);
    if Truthy(image) {
      assert r.turn.chunksSent == [];
    }
  }

  /** A completed text request streams: the renderer receives every chunk
      of the reply, and the reply is their concatenation. */
  lemma ChatRequestStreams<E>(
    e: Engine<E>, codec: Codec<E>, message: Option<string>, o: Oracle<E>)
    requires e.initialized && e.session.Some? && o.chat.Replied?
    ensures var r := ChatRequest(e, codec, message, None, o);
      && |r.pushed| == |o.chat.chunks|
      && (forall i :: 0 <= i < |r.pushed| ==> r.pushed[i] == ChatChunk(o.chat.chunks[i]))
      && r.turn.reply == Concat(o.chat.chunks)
  {
    StreamingSendsEveryChunk(e, codec, message, o);
  }

  /** The engine the application constructs: the copy in this file. */
  function AppEngine<E>(apiKey: Option<string>, sdk: SdkSetup, file: File, codec: Codec<E>): (e: Engine<E>)
    ensures e.variant == BundledEngine
    ensures e.initialized <==> KeyUsable(apiKey) && sdk.clientOk && sdk.startChatOk
  {
    Create(BundledEngine, apiKey, sdk, file, codec)
  }
}

=== FILE: memory_store.dfy ===
/** The persistent chat history (`MemoryStore` in src/main/core/memory.js,
    duplicated verbatim in src/main/index.js). The history file is abstract
    state; `JSON.stringify` / `JSON.parse` are a `Codec` supplied by the
    caller, and whether a file write succeeds is an input. */
module MemoryStore {

  import opened Optional
  import opened JsArray

  /** How many entries `save` keeps. */
  const MaxHistory: nat := 50

  /** The JSON encoder and decoder for a history. `decode` is `None` when
      parsing throws or yields something that is not a history. */
  datatype Codec<!E> = Codec(encode: seq<E> -> string, decode: string -> Option<seq<E>>)

  /** `chat_history.json` as `load` finds it: missing, present but
      unreadable, or present with some text. */
  datatype File = Absent | Unreadable | Present(text: string)

  /** The store: the in-memory history and the file behind it. */
  datatype Store<E> = Store(history: seq<E>, file: File)

  /** Whether `writeFileSync` succeeded; after a failure the file is left in
      whatever state `left` describes. */
  datatype WriteOutcome = Written | WriteFailed(left: File)

  /** A store as constructed: empty history, whatever file is on disk. */
  function New<E>(file: File): (s: Store<E>)
    ensures s.history == [] && s.file == file
  {
    Store([], file)
  }

  /** The part of a history that `save` keeps: `newHistory.slice(-50)`. */
  function Truncate<E>(h: seq<E>): seq<E> {
    SliceFrom(h, -(MaxHistory as int))
  }

  /** `save(newHistory)`: write the truncated history, and adopt it only if
      the write succeeded; a failed write is swallowed. */
  function Save<E>(s: Store<E>, codec: Codec<E>, newHistory: seq<E>, w: WriteOutcome): (r: Store<E>)
    ensures w.WriteFailed? ==> r.history == s.history
    ensures w.Written? ==> r.file == Present(codec.encode(r.history))
  {
    var truncated := Truncate(newHistory);
    match w
    case Written => Store(truncated, Present(codec.encode(truncated)))
    case WriteFailed(left) => Store(s.history, left)
  }

  /** The result of `load`: the new store and the history it returned. */
  datatype Loaded<E> = Loaded(store: Store<E>, returned: seq<E>)

  /** `load()`: adopt the decoded file when there is one, keep the current
      history when there is none, and fall back to an empty history when
      the file cannot be read or parsed. */
  function Load<E>(s: Store<E>, codec: Codec<E>): (r: Loaded<E>)
    ensures r.returned == r.store.history
    ensures r.store.file == s.file
  {
    var h :=
      match s.file
      case Absent => s.history
      case Unreadable => []
      case Present(text) => codec.decode(text).GetOr([]);
    Loaded(Store(h, s.file), h)
  }

  // ---------------------------------------------------------------------
  // save
  // ---------------------------------------------------------------------

  /** A successful save keeps exactly the last min(50, |h|) entries of `h`,
      in their original order, writes them and adopts them. */
  lemma SaveKeepsLast<E>(s: Store<E>, codec: Codec<E>, h: seq<E>)
    ensures var r := Save(s, codec, h, Written);
      && |r.history| == Min(MaxHistory, |h|)
      && IsSuffix(r.history, h)
      && r.file == Present(codec.encode(r.history))
  {
    LastN(h, MaxHistory);
  }

  /** After a successful save the history never exceeds 50 entries. */
  lemma SaveBounded<E>(s: Store<E>, codec: Codec<E>, h: seq<E>)
    ensures |Save(s, codec, h, Written).history| <= MaxHistory
  {
    SaveKeepsLast(s, codec, h);
  }

  /** A history of at most 50 entries is saved whole. */
  lemma SaveShortWhole<E>(s: Store<E>, codec: Codec<E>, h: seq<E>)
    requires |h| <= MaxHistory
    ensures Save(s, codec, h, Written).history == h
  {
    ShortKeptWhole(h, MaxHistory);
  }

  /** Saving what was just saved changes neither the history nor the file. */
  lemma SaveIdempotent<E>(s: Store<E>, codec: Codec<E>, h: seq<E>)
    ensures var r := Save(s, codec, h, Written);
      Save(r, codec, r.history, Written) == r
  {
    LastNIdempotent(h, MaxHistory);
  }

  /** A failed write leaves the in-memory history as it was. */
  lemma SaveFailureKeepsHistory<E>(s: Store<E>, codec: Codec<E>, h: seq<E>, left: File)
    ensures Save(s, codec, h, WriteFailed(left)).history == s.history
  {
  }

  // ---------------------------------------------------------------------
  // load
  // ---------------------------------------------------------------------

  /** With no file, load returns the current history unchanged. */
  lemma LoadAbsentKeeps<E>(s: Store<E>, codec: Codec<E>)
    requires s.file == Absent
    ensures Load(s, codec).store == s
  {
  }

  /** A fresh store with no file loads an empty history. */
  lemma FreshLoadEmpty<E>(codec: Codec<E>)
    ensures Load(New<E>(Absent), codec).returned == []
  {
  }

  /** An unreadable or unparseable file resets the history to empty. */
  lemma LoadCorruptResets<E>(s: Store<E>, codec: Codec<E>)
    requires s.file.Unreadable? || (s.file.Present? && codec.decode(s.file.text).None?)
    ensures Load(s, codec).returned == []
  {
  }

  /** Load adopts a parsed file whole, however long it is: the 50-entry
      bound applies only when saving. */
  lemma LoadKeepsAll<E>(s: Store<E>, codec: Codec<E>, h: seq<E>)
    requires s.file.Present? && codec.decode(s.file.text) == Some(h)
    ensures Load(s, codec).returned == h
  {
  }

  /** Save then load gives back the truncated history, provided decoding
      undoes encoding for it. */
  lemma SaveThenLoad<E>(s: Store<E>, codec: Codec<E>, h: seq<E>)
    requires codec.decode(codec.encode(Truncate(h))) == Some(Truncate(h))
    ensures var r := Load(Save(s, codec, h, Written), codec);
      && r.returned == Truncate(h)
      && |r.returned| == Min(MaxHistory, |h|)
      && IsSuffix(r.returned, h)
  {
    SaveKeepsLast(s, codec, h);
  }

  /** Save then load from a fresh process (a new store over the written
      file) recovers the same history. */
  lemma SaveThenReload<E>(s: Store<E>, codec: Codec<E>, h: seq<E>)
    requires codec.decode(codec.encode(Truncate(h))) == Some(Truncate(h))
    ensures var saved := Save(s, codec, h, Written);
      Load(New<E>(saved.file), codec).returned == saved.history
  {
  }
}

=== FILE: mood_engine.dfy ===
/** The mood-to-CSS-class mapping (`getMoodColor` in
    src/renderer/src/core/mood-engine.js): five moods have their own class,
    and any other value falls back to the neutral class. */
module MoodEngine {

  import opened Strings
  import opened JsObject

  /** The moods that have their own class. */
  const KnownMoods: set<string> := {"happy", "playful", "thoughtful", "curious", "neutral"}

  /** The lookup table, keyed by mood. */
  const MoodClasses: map<string, string> := map[
    "happy" := "luna-mood-happy", "playful" := "luna-mood-playful",
    "thoughtful" := "luna-mood-thoughtful", "curious" := "luna-mood-curious",
    "neutral" := "luna-mood-neutral"
  ]

  const ClassPrefix: string := "luna-mood-"

  /** Every class name is the prefix followed by its mood. */
  lemma TableIsPrefixed(mood: string)
    requires mood in MoodClasses
    ensures mood in KnownMoods && MoodClasses[mood] == ClassPrefix + mood
  {
  }

  /** `getMoodColor(mood)` looking up only the table's own entries. */
  function MoodColor(mood: string): (r: string)
    ensures r == ClassPrefix + (if mood in KnownMoods then mood else "neutral")
    ensures r in MoodClasses.Values
  {
    TableIsPrefixed(if mood in MoodClasses then mood else "neutral");
    if mood in MoodClasses then MoodClasses[mood] else MoodClasses["neutral"]
  }

  /** An unrecognised mood is coloured as neutral. */
  lemma UnknownIsNeutral(mood: string)
    requires mood !in KnownMoods
    ensures MoodColor(mood) == MoodColor("neutral")
  {
  }

  /** Different known moods get different classes, so the class determines
      the mood. */
  lemma KnownMoodsDistinct(m1: string, m2: string)
    requires m1 in KnownMoods && m2 in KnownMoods && MoodColor(m1) == MoodColor(m2)
    ensures m1 == m2
  {
    assert m1 == MoodColor(m1)[|ClassPrefix|..];
    assert m2 == MoodColor(m2)[|ClassPrefix|..];
  }

  /** `getMoodColor` as written: `mapping[mood] || mapping.neutral`, which
      also finds the members every object inherits. */
  function MoodColorAsWritten(mood: string): (r: Value)
    ensures mood in KnownMoods ==> r == Str(MoodColor(mood))
  {
    TableIsPrefixed(if mood in MoodClasses then mood else "neutral");
    OrElse(Get(MoodClasses, mood), MoodClasses["neutral"])
  }

  /** As written, "constructor" yields the inherited `Object` function rather
      than a class name. */
  lemma AsWrittenLeaksConstructor(mood: string)
    requires mood == "constructor"
    ensures MoodColorAsWritten(mood) == Member("constructor")
    ensures MoodColor(mood) == "luna-mood-neutral"
  {
  }

  /** Away from the inherited names the two agree. */
  lemma AsWrittenAgrees(mood: string)
    requires mood !in PrototypeKeys
    ensures MoodColorAsWritten(mood) == Str(MoodColor(mood))
  {
  }
}

=== FILE: mood_store.dfy ===
/** The renderer's mood store (src/renderer/src/store/moodStore.js): three
    string fields and five setters. Each setter merges one field into the
    state, as the store library's `set` does with a partial object. */
module MoodStore {

  import TimeAwareness

  datatype MoodState = MoodState(mood: string, energyLevel: string, activity: string)

  /** The state the store starts in. */
  const Initial: MoodState := MoodState("idle", "alert", "neutral")

  /** `setMood(mood)`: replaces the mood and keeps the other two fields. */
  function SetMood(s: MoodState, mood: string): (r: MoodState)
    ensures r.mood == mood
    ensures r.energyLevel == s.energyLevel && r.activity == s.activity
  {
    s.(mood := mood)
  }

  /** `updateMood(mood)`, the same merge as `setMood`: replaces the mood and keeps the other two fields. */
  function UpdateMood(s: MoodState, mood: string): (r: MoodState)
    ensures r.mood == mood
    ensures r.energyLevel == s.energyLevel && r.activity == s.activity
  {
    s.(mood := mood)
  }

  /** `setEnergyLevel(energyLevel)`: replaces the energyLevel and keeps the other two fields. */
  function SetEnergyLevel(s: MoodState, energyLevel: string): (r: MoodState)
    ensures r.energyLevel == energyLevel
    ensures r.mood == s.mood && r.activity == s.activity
  {
    s.(energyLevel := energyLevel)
  }

  /** `updateEnergy(energyLevel)`, the same merge as `setEnergyLevel`: replaces the energyLevel and keeps the other two fields. */
  function UpdateEnergy(s: MoodState, energyLevel: string): (r: MoodState)
    ensures r.energyLevel == energyLevel
    ensures r.mood == s.mood && r.activity == s.activity
  {
    s.(energyLevel := energyLevel)
  }

  /** `setActivity(activity)`: replaces the activity and keeps the other two fields. */
  function SetActivity(s: MoodState, activity: string): (r: MoodState)
    ensures r.activity == activity
    ensures r.mood == s.mood && r.energyLevel == s.energyLevel
  {
    s.(activity := activity)
  }

  /** The initial energy is the morning tier's name. */
  lemma InitialEnergyIsATier()
    ensures Initial.energyLevel == TimeAwareness.Energy.Alert.Name()
    ensures Initial.mood == "idle" && Initial.activity == "neutral"
  {
  }

  /** Each mood setter changes the mood and nothing else. */
  lemma MoodSettersFrame(s: MoodState, m: string)
    ensures SetMood(s, m).mood == m
    ensures SetMood(s, m).energyLevel == s.energyLevel && SetMood(s, m).activity == s.activity
    ensures UpdateMood(s, m) == SetMood(s, m)
  {
  }

  /** Each energy setter changes the energy level and nothing else. */
  lemma EnergySettersFrame(s: MoodState, e: string)
    ensures SetEnergyLevel(s, e).energyLevel == e
    ensures SetEnergyLevel(s, e).mood == s.mood && SetEnergyLevel(s, e).activity == s.activity
    ensures UpdateEnergy(s, e) == SetEnergyLevel(s, e)
  {
  }

  /** The activity setter changes the activity and nothing else. */
  lemma ActivitySetterFrame(s: MoodState, a: string)
    ensures SetActivity(s, a).activity == a
    ensures SetActivity(s, a).mood == s.mood && SetActivity(s, a).energyLevel == s.energyLevel
  {
  }

  /** Setting a field twice is setting it once with the later value; in
      particular every setter is idempotent. */
  lemma LastWriteWins(s: MoodState, x: string, y: string)
    ensures SetMood(SetMood(s, x), y) == SetMood(s, y)
    ensures SetEnergyLevel(SetEnergyLevel(s, x), y) == SetEnergyLevel(s, y)
    ensures SetActivity(SetActivity(s, x), y) == SetActivity(s, y)
    ensures SetMood(SetMood(s, x), x) == SetMood(s, x)
  {
  }

  /** Setters of different fields commute. */
  lemma SettersCommute(s: MoodState, m: string, e: string, a: string)
    ensures SetEnergyLevel(SetMood(s, m), e) == SetMood(SetEnergyLevel(s, e), m)
    ensures SetActivity(SetMood(s, m), a) == SetMood(SetActivity(s, a), m)
    ensures SetActivity(SetEnergyLevel(s, e), a) == SetEnergyLevel(SetActivity(s, a), e)
  {
  }

  /** Setting each field reaches any state from any state. */
  lemma SettersReachAll(s: MoodState, t: MoodState)
    ensures SetActivity(SetEnergyLevel(SetMood(s, t.mood), t.energyLevel), t.activity) == t
  {
  }
}

=== FILE: optional.dfy ===
/** The optional-value datatype shared by the whole model: it stands for
    JavaScript's `null` / `undefined` where the source distinguishes a missing
    value from a present one. */
module Optional {

  datatype Option<+T> = None | Some(value: T) {

    /** The value, or `default` when there is none. */
    function GetOr(default: T): T {
      match this
      case Some(v) => v
      case None => default
    }
  }
}

=== FILE: strings.dfy ===
/** The few JavaScript string operations the companion's logic relies on:
    `trim`, `toLowerCase`, `startsWith`, `includes`, `replace` with a string
    pattern, `split` on one character, and decimal formatting of small
    numbers. Each is defined once here and characterised by its contract. */
module Strings {

  import opened Optional

  /** JavaScript truthiness of an optional string argument: absent
      (`undefined`, `null`) and empty strings are falsy. */
  predicate Truthy(s: Option<string>) {
    s.Some? && s.value != ""
  }

  // ---------------------------------------------------------------------
  // Whitespace and trim
  // ---------------------------------------------------------------------

  /** The characters `String.prototype.trim` removes: ECMAScript WhiteSpace
      (tab, vertical tab, form feed, space, no-break space, the Zs space
      separators, byte-order mark) and LineTerminator (LF, CR, LS, PS). */
  predicate IsWhitespace(c: char) {
    var n := c as int;
    || n == 0x09 || n == 0x0A || n == 0x0B || n == 0x0C || n == 0x0D
    || n == 0x20 || n == 0xA0 || n == 0x1680
    || (0x2000 <= n <= 0x200A)
    || n == 0x2028 || n == 0x2029 || n == 0x202F || n == 0x205F
    || n == 0x3000 || n == 0xFEFF
  }

  predicate AllWhitespace(s: string) {
    forall i :: 0 <= i < |s| ==> IsWhitespace(s[i])
  }

  /** `r` is what trimming `x` leaves when `x` is split as `a + r + b`:
      the pads are whitespace and `r` neither starts nor ends with it. */
  predicate IsTrimSplit(x: string, a: string, r: string, b: string) {
    && x == a + r + b
    && AllWhitespace(a)
    && AllWhitespace(b)
    && (r == [] || (!IsWhitespace(r[0]) && !IsWhitespace(r[|r| - 1])))
  }

  /** Index of the first non-whitespace character at or after `i`, or `|s|`. */
  function SkipLeading(s: string, i: nat): (k: nat)
    requires i <= |s|
    ensures i <= k <= |s|
    ensures forall j :: i <= j < k ==> IsWhitespace(s[j])
    ensures k == |s| || !IsWhitespace(s[k])
    decreases |s| - i
  {
    if i < |s| && IsWhitespace(s[i]) then SkipLeading(s, i + 1) else i
  }

  /** Index just past the last non-whitespace character in `s[lo..e]`, or `lo`. */
  function SkipTrailing(s: string, lo: nat, e: nat): (k: nat)
    requires lo <= e <= |s|
    ensures lo <= k <= e
    ensures forall j :: k <= j < e ==> IsWhitespace(s[j])
    ensures k == lo || !IsWhitespace(s[k - 1])
    decreases e
  {
    if lo < e && IsWhitespace(s[e - 1]) then SkipTrailing(s, lo, e - 1) else e
  }

  /** JavaScript `s.trim()`: leading, then trailing whitespace removed. */
  function Trim(s: string): (r: string)
    ensures |r| <= |s|
    ensures r == [] || (!IsWhitespace(r[0]) && !IsWhitespace(r[|r| - 1]))
  {
    var a := SkipLeading(s, 0);
    var b := SkipTrailing(s, a, |s|);
    s[a..b]
  }

  /** What `trim` keeps is `s` less a whitespace head and a whitespace tail. */
  lemma TrimSplit(s: string)
    ensures SkipLeading(s, 0) + |Trim(s)| <= |s|
    ensures IsTrimSplit(s, s[..SkipLeading(s, 0)], Trim(s), s[SkipLeading(s, 0) + |Trim(s)|..])
  {
    var a := SkipLeading(s, 0);
    var b := SkipTrailing(s, a, |s|);
    assert Trim(s) == s[a..b];
    assert s == s[..a] + s[a..b] + s[b..];
  }

  /** Trimming has exactly one possible outcome: any split of `x` into a
      whitespace pad, a core that neither starts nor ends with whitespace,
      and a whitespace pad determines `Trim(x)`. */
  lemma TrimUnique(x: string, a: string, r: string, b: string)
    requires IsTrimSplit(x, a, r, b)
    ensures Trim(x) == r
  {
    var k := SkipLeading(x, 0);
    var e := SkipTrailing(x, k, |x|);
    var E := |a| + |r|;
    assert forall j :: 0 <= j < |a| ==> x[j] == a[j];
    assert forall j :: E <= j < |x| ==> x[j] == b[j - E];
    if r == [] {
      assert forall j :: |a| <= j < |x| ==> x[j] == b[j - |a|];
    } else {
      assert x[|a|] == r[0];
      assert x[E - 1] == r[|r| - 1];
      assert x[k..e] == r;
    }
  }

  /** Surrounding whitespace never changes the outcome of `trim`. */
  lemma TrimIgnoresPadding(a: string, s: string, b: string)
    requires AllWhitespace(a) && AllWhitespace(b)
    ensures Trim(a + s + b) == Trim(s)
  {
    var r := Trim(s);
    var k := SkipLeading(s, 0);
    var pre, post := s[..k], s[k + |r|..];
    TrimSplit(s);
    assert a + s + b == (a + pre) + r + (post + b);
    TrimUnique(a + s + b, a + pre, r, post + b);
  }

  /** Trimming twice is trimming once. */
  lemma TrimIdempotent(s: string)
    ensures Trim(Trim(s)) == Trim(s)
  {
    var r := Trim(s);
    assert IsTrimSplit(r, [], r, []);
    TrimUnique(r, [], r, []);
  }

  // ---------------------------------------------------------------------
  // Lower case
  // ---------------------------------------------------------------------

  /** Lower-casing of one character, for the ASCII letters. */
  function LowerChar(c: char): (d: char)
    ensures ('A' <= c <= 'Z') ==> d as int == c as int + 32
    ensures !('A' <= c <= 'Z') ==> d == c
  {
    if 'A' <= c <= 'Z' then (c as int + 32) as char else c
  }

  /** JavaScript `s.toLowerCase()` restricted to ASCII letters. */
  function ToLower(s: string): (r: string)
    ensures |r| == |s|
    ensures forall i :: 0 <= i < |s| ==> r[i] == LowerChar(s[i])
  {
    seq(|s|, i requires 0 <= i < |s| => LowerChar(s[i]))
  }

  lemma ToLowerConcat(x: string, y: string)
    ensures ToLower(x + y) == ToLower(x) + ToLower(y)
  {
  }

  lemma ToLowerIdempotent(s: string)
    ensures ToLower(ToLower(s)) == ToLower(s)
  {
  }

  lemma LowerKeepsWhitespace(c: char)
    ensures IsWhitespace(LowerChar(c)) <==> IsWhitespace(c)
  {
  }

  lemma LowerKeepsTrimSplit(x: string, a: string, r: string, b: string)
    requires IsTrimSplit(x, a, r, b)
    ensures IsTrimSplit(ToLower(x), ToLower(a), ToLower(r), ToLower(b))
  {
    ToLowerConcat(a + r, b);
    ToLowerConcat(a, r);
    forall c: char ensures IsWhitespace(LowerChar(c)) <==> IsWhitespace(c) {
      LowerKeepsWhitespace(c);
    }
  }

  /** Lower-casing and trimming commute, because lower-casing neither
      creates nor removes whitespace. */
  lemma LowerTrimCommute(s: string)
    ensures ToLower(Trim(s)) == Trim(ToLower(s))
  {
    var r := Trim(s);
    var k := SkipLeading(s, 0);
    TrimSplit(s);
    LowerKeepsTrimSplit(s, s[..k], r, s[k + |r|..]);
    TrimUnique(ToLower(s), ToLower(s[..k]), ToLower(r), ToLower(s[k + |r|..]));
  }

  // ---------------------------------------------------------------------
  // Searching and replacing
  // ---------------------------------------------------------------------

  /** JavaScript `s.startsWith(p)`. */
  predicate StartsWith(s: string, p: string) {
    |p| <= |s| && s[..|p|] == p
  }

  /** `p` occurs in `s` starting at index `i`. */
  predicate OccursAt(s: string, p: string, i: int) {
    0 <= i && i + |p| <= |s| && s[i..i + |p|] == p
  }

  lemma OccursShift(s: string, p: string)
    requires |s| > 0
    ensures forall j :: 1 <= j ==> (OccursAt(s, p, j) <==> OccursAt(s[1..], p, j - 1))
  {
    forall j | 1 <= j
      ensures OccursAt(s, p, j) <==> OccursAt(s[1..], p, j - 1)
    {
      if j + |p| <= |s| {
        assert s[1..][j - 1..j - 1 + |p|] == s[j..j + |p|];
      }
    }
  }

  /** JavaScript `s.indexOf(p)`: the first index where `p` occurs. */
  function IndexOf(s: string, p: string): (r: Option<nat>)
    ensures r.Some? ==> OccursAt(s, p, r.value)
    ensures r.Some? ==> forall j :: 0 <= j < r.value ==> !OccursAt(s, p, j)
    ensures r.None? ==> forall j :: !OccursAt(s, p, j)
    decreases |s|
  {
    if |s| < |p| then None
    else if s[..|p|] == p then Some(0)
    else
      OccursShift(s, p);
      match IndexOf(s[1..], p)
      case None => None
      case Some(k) => Some(k + 1)
  }

  /** JavaScript `s.includes(p)`. */
  predicate Contains(s: string, p: string) {
    IndexOf(s, p).Some?
  }

  lemma ContainsMeansOccurs(s: string, p: string)
    ensures Contains(s, p) <==> exists j :: OccursAt(s, p, j)
  {
  }

  /** A pattern holding a character that `s` lacks does not occur in `s`. */
  lemma MissingCharNotContained(s: string, p: string, c: char)
    requires c in p && c !in s
    ensures !Contains(s, p)
  {
  }

  /** A prefix of `s` is its first occurrence. */
  lemma PrefixIsFirstOccurrence(s: string, p: string)
    requires StartsWith(s, p)
    ensures IndexOf(s, p) == Some(0)
  {
    assert OccursAt(s, p, 0);
  }

  /** JavaScript `s.replace(p, r)` with a string pattern: only the first
      occurrence is replaced, and `s` is returned unchanged when there is
      none. */
  function ReplaceFirst(s: string, p: string, r: string): (t: string)
    ensures !Contains(s, p) ==> t == s
    ensures Contains(s, p) ==> |t| == |s| - |p| + |r|
    ensures Contains(s, p) ==>
      exists i :: && OccursAt(s, p, i)
                  && (forall j :: 0 <= j < i ==> !OccursAt(s, p, j))
                  && t == s[..i] + r + s[i + |p|..]
  {
    match IndexOf(s, p)
    case None => s
    case Some(i) =>
      assert OccursAt(s, p, i);
      s[..i] + r + s[i + |p|..]
  }

  /** Replacing a pattern by itself changes nothing. */
  lemma ReplaceByItself(s: string, p: string)
    ensures ReplaceFirst(s, p, p) == s
  {
    match IndexOf(s, p)
    case None =>
    case Some(i) =>
      assert s[i..i + |p|] == p;
      assert s[..i] + p + s[i + |p|..] == s[..i] + s[i..i + |p|] + s[i + |p|..];
      assert s[..i] + s[i..i + |p|] + s[i + |p|..] == s;
  }

  /** A pattern the string starts with is the occurrence replaced. */
  lemma ReplaceAtStart(s: string, p: string, r: string)
    requires StartsWith(s, p)
    ensures ReplaceFirst(s, p, r) == r + s[|p|..]
  {
    PrefixIsFirstOccurrence(s, p);
  }

  /** Deleting the first occurrence of a pattern that ends in whitespace
      from a string that does not end in whitespace keeps its last
      character, so the result is never empty. */
  lemma DeleteKeepsLastChar(s: string, p: string)
    requires |s| > 0 && !IsWhitespace(s[|s| - 1])
    requires |p| > 0 && IsWhitespace(p[|p| - 1])
    ensures |ReplaceFirst(s, p, "")| > 0
    ensures ReplaceFirst(s, p, "")[|ReplaceFirst(s, p, "")| - 1] == s[|s| - 1]
  {
    match IndexOf(s, p)
    case None =>
    case Some(i) =>
      assert s[i + |p| - 1] == p[|p| - 1];
      var t := s[..i] + "" + s[i + |p|..];
      assert t[|t| - 1] == s[|s| - 1];
  }

  /** A string that does not end in whitespace trims to something non-empty
      ending in the same character. */
  lemma TrimKeepsLastChar(s: string)
    requires |s| > 0 && !IsWhitespace(s[|s| - 1])
    ensures |Trim(s)| > 0 && Trim(s)[|Trim(s)| - 1] == s[|s| - 1]
  {
    var a := SkipLeading(s, 0);
    var b := SkipTrailing(s, a, |s|);
  }

  // ---------------------------------------------------------------------
  // Splitting on one character
  // ---------------------------------------------------------------------

  /** JavaScript `s.split(sep)` for a one-character separator: the pieces
      between separators, empty pieces included. */
  function Split(s: string, sep: char): (parts: seq<string>)
    ensures |parts| >= 1
    ensures forall k :: 0 <= k < |parts| ==> sep !in parts[k]
    decreases |s|
  {
    if |s| == 0 then [""]
    else
      var rest := Split(s[1..], sep);
      if s[0] == sep then [""] + rest
      else [[s[0]] + rest[0]] + rest[1..]
  }

  /** The inverse of `Split`: the pieces joined with the separator. */
  function Join(parts: seq<string>, sep: char): string
    requires |parts| >= 1
    decreases |parts|
  {
    if |parts| == 1 then parts[0] else parts[0] + [sep] + Join(parts[1..], sep)
  }

  /** Joining the pieces with the separator gives the string back. */
  lemma {:induction false} SplitJoin(s: string, sep: char)
    ensures Join(Split(s, sep), sep) == s
    decreases |s|
  {
    if |s| > 0 {
      var rest := Split(s[1..], sep);
      SplitJoin(s[1..], sep);
      if s[0] == sep {
        assert s == [sep] + s[1..];
      } else if |rest| == 1 {
        assert s == [s[0]] + s[1..];
      } else {
        assert Join(rest, sep) == rest[0] + [sep] + Join(rest[1..], sep);
        assert s == [s[0]] + s[1..];
      }
    }
  }

  /** The first piece runs up to the first separator. */
  lemma {:induction false} SplitAtFirst(a: string, sep: char, b: string)
    requires sep !in a
    ensures Split(a + [sep] + b, sep) == [a] + Split(b, sep)
    decreases |a|
  {
    if |a| == 0 {
      assert a + [sep] + b == [sep] + b;
      assert ([sep] + b)[1..] == b;
    } else {
      var x := a + [sep] + b;
      assert x[1..] == a[1..] + [sep] + b;
      SplitAtFirst(a[1..], sep, b);
      assert [a[0]] + a[1..] == a;
    }
  }

  /** A string without the separator is one piece. */
  lemma {:induction false} SplitWithoutSeparator(s: string, sep: char)
    requires sep !in s
    ensures Split(s, sep) == [s]
    decreases |s|
  {
    if |s| > 0 {
      SplitWithoutSeparator(s[1..], sep);
      assert [s[0]] + s[1..] == s;
    }
  }

  // ---------------------------------------------------------------------
  // Decimal numbers
  // ---------------------------------------------------------------------

  predicate IsDigit(c: char) {
    '0' <= c <= '9'
  }

  function DigitChar(d: nat): (c: char)
    requires d < 10
    ensures IsDigit(c) && c as int - '0' as int == d
  {
    (d + '0' as int) as char
  }

  function DigitValue(c: char): nat
    requires IsDigit(c)
  {
    c as int - '0' as int
  }

  /** Decimal rendering of a natural number, as a template literal
      `${n}` produces for a non-negative integer. */
  function NatToString(n: nat): (r: string)
    ensures |r| >= 1
    ensures forall i :: 0 <= i < |r| ==> IsDigit(r[i])
    ensures n < 10 <==> |r| == 1
    decreases n
  {
    if n < 10 then [DigitChar(n)] else NatToString(n / 10) + [DigitChar(n % 10)]
  }

  /** The value of a non-empty string of decimal digits. */
  function ParseNat(s: string): nat
    requires |s| >= 1 && forall i :: 0 <= i < |s| ==> IsDigit(s[i])
    decreases |s|
  {
    if |s| == 1 then DigitValue(s[0])
    else ParseNat(s[..|s| - 1]) * 10 + DigitValue(s[|s| - 1])
  }

  /** Reading a rendered number gives the number back. */
  lemma {:induction false} ParseNatToString(n: nat)
    ensures ParseNat(NatToString(n)) == n
    decreases n
  {
    if n >= 10 {
      var r := NatToString(n);
      assert r[..|r| - 1] == NatToString(n / 10);
      ParseNatToString(n / 10);
    }
  }
}

=== FILE: test_console.dfy ===
/** The test console (src/renderer/src/App.jsx): its bounded event log, the
    voice-command handler, and the status badge. The clock that stamps log
    entries is a parameter. */
module TestConsole {

  import opened Optional
  import opened Strings
  import opened JsArray
  import VoiceControl

  // ---------------------------------------------------------------------
  // The log
  // ---------------------------------------------------------------------

  datatype LogEntry = LogEntry(timestamp: string, message: string, kind: string)

  /** How many earlier entries `addLog` keeps before appending. */
  const KeptEntries: nat := 20

  /** `addLog(message, type)`: keep the last 20 entries, then append. */
  function AddLog(logs: seq<LogEntry>, timestamp: string, message: string, kind: string): (r: seq<LogEntry>)
    ensures |r| == Min(KeptEntries, |logs|) + 1
    ensures r[|r| - 1] == LogEntry(timestamp, message, kind)
    ensures IsSuffix(r[..|r| - 1], logs)
  {
    AppendAfterLastN(logs, KeptEntries, LogEntry(timestamp, message, kind));
    SliceFrom(logs, -(KeptEntries as int)) + [LogEntry(timestamp, message, kind)]
  }

  /** The log never grows past 21 entries: the last 20 earlier entries, in
      their order, then the new one. */
  lemma AddLogBounded(logs: seq<LogEntry>, timestamp: string, message: string, kind: string)
    ensures var r := AddLog(logs, timestamp, message, kind);
      && |r| == Min(KeptEntries, |logs|) + 1
      && |r| <= KeptEntries + 1
      && r[|r| - 1] == LogEntry(timestamp, message, kind)
      && IsSuffix(r[..|r| - 1], logs)
  {
    AppendAfterLastN(logs, KeptEntries, LogEntry(timestamp, message, kind));
  }

  /** Below the bound nothing is dropped. */
  lemma AddLogKeepsShort(logs: seq<LogEntry>, timestamp: string, message: string, kind: string)
    requires |logs| <= KeptEntries
    ensures AddLog(logs, timestamp, message, kind) == logs + [LogEntry(timestamp, message, kind)]
  {
    ShortKeptWhole(logs, KeptEntries);
  }

  // ---------------------------------------------------------------------
  // handleVoiceCommand
  // ---------------------------------------------------------------------

  /** The console's state: the log and the per-feature test status, where a
      missing key is `undefined`. */
  datatype Console = Console(logs: seq<LogEntry>, status: map<string, bool>)

  /** The outcome of one command: the new state, and the name passed to
      `openApp`, if it was called. */
  datatype Handled = Handled(console: Console, openApp: Option<string>)

  const OpenPrefix: string := "open:"

  /** `handleVoiceCommand(command)`. */
  function HandleVoiceCommand(c: Console, command: string, timestamp: string): (h: Handled)
    ensures h.console.status == c.status["voice" := true]
    ensures h.openApp.Some? <==> StartsWith(command, OpenPrefix)
    ensures var logs := h.console.logs;
      |logs| > 0 && logs[|logs| - 1] == LogEntry(timestamp, "Voice Command: " + command, "voice")
    ensures IsSuffix(h.console.logs[..|h.console.logs| - 1], c.logs)
  {
    var logs := AddLog(c.logs, timestamp, "Voice Command: " + command, "voice");
    var status := c.status["voice" := true];
    var target :=
      if StartsWith(command, OpenPrefix) then
        var parts := Split(command, ':');
        Some(if |parts| > 1 then parts[1] else "")
      else None;
    Handled(Console(logs, status), target)
  }

  /** Every command marks voice as working and leaves the other statuses. */
  lemma CommandMarksVoice(c: Console, command: string, timestamp: string)
    ensures var h := HandleVoiceCommand(c, command, timestamp);
      && h.console.status["voice"]
      && (forall k :: k in c.status && k != "voice" ==> k in h.console.status && h.console.status[k] == c.status[k])
  {
  }

  /** The open command the classifier emits for a name without a colon
      reaches `openApp` with exactly that name. */
  lemma OpenCommandRoundTrip(c: Console, app: string, timestamp: string)
    requires ':' !in app
    ensures HandleVoiceCommand(c, VoiceControl.Wire(VoiceControl.Open(app)), timestamp).openApp == Some(app)
  {
    var command := VoiceControl.Wire(VoiceControl.Open(app));
    assert command == "open" + [':'] + app;
    assert StartsWith(command, OpenPrefix);
    assert ':' !in "open";
    SplitAtFirst("open", ':', app);
    SplitWithoutSeparator(app, ':');
  }

  /** No other command the classifier emits calls `openApp`. */
  lemma OtherCommandsOpenNothing(c: Console, cmd: VoiceControl.Command, timestamp: string)
    requires !cmd.Open?
    ensures HandleVoiceCommand(c, VoiceControl.Wire(cmd), timestamp).openApp == None
  {
    var w := VoiceControl.Wire(cmd);
    assert |w| < 5 || w[4] != ':';
  }

  /** A name with a colon is cut at its first colon. */
  lemma ColonCutsName(c: Console, a: string, b: string, timestamp: string)
    requires ':' !in a
    ensures HandleVoiceCommand(c, OpenPrefix + a + [':'] + b, timestamp).openApp == Some(a)
  {
    var command := OpenPrefix + a + [':'] + b;
    assert StartsWith(command, OpenPrefix);
    assert command == "open" + [':'] + (a + [':'] + b);
    assert ':' !in "open";
    SplitAtFirst("open", ':', a + [':'] + b);
    SplitAtFirst(a, ':', b);
  }

  // ---------------------------------------------------------------------
  // StatusBadge
  // ---------------------------------------------------------------------

  /** A test's status: not run yet (`undefined`), passed or failed. */
  datatype Verdict = Pending | Passed | Failed

  datatype Badge = Badge(color: string, icon: string)

  /** The status value as the badge reads it: `undefined`, or a boolean. */
  function VerdictOf(status: Option<bool>): Verdict {
    match status
    case None => Pending
    case Some(ok) => if ok then Passed else Failed
  }

  /** `StatusBadge`'s colour and icon for a status value. */
  function StatusBadge(status: Option<bool>): (b: Badge)
    ensures status.None? <==> b.icon == "⏳"
    ensures status == Some(true) <==> b.icon == "✅"
    ensures status == Some(false) <==> b.icon == "❌"
  {
    var color := if status.None? then "#888" else if status.value then "#6bff6b" else "#ff6b6b";
    var icon := if status.None? then "⏳" else if status.value then "✅" else "❌";
    Badge(color, icon)
  }

  /** The badge tells the three verdicts apart by colour as well as icon. */
  lemma BadgeDistinguishesVerdicts(s1: Option<bool>, s2: Option<bool>)
    ensures StatusBadge(s1).color == StatusBadge(s2).color <==> VerdictOf(s1) == VerdictOf(s2)
  {
  }
}

=== FILE: time_awareness.dfy ===
/** Time-of-day energy (src/main/logic/TimeAwareness.js). The clock is not
    read: the hour `new Date().getHours()` would return is a parameter. */
module TimeAwareness {

  import opened Optional

  /** The four energy tiers. */
  datatype Energy = Alert | Quiet | Warm | Slow {

    /** The string the program uses for the tier. */
    function Name(): string {
      match this
      case Alert => "alert"
      case Quiet => "quiet"
      case Warm => "warm"
      case Slow => "slow"
    }
  }

  /** `getEnergyLevel()` at the given hour: the rule chain as written. */
  function EnergyLevel(hour: int): (r: Energy)
    ensures 0 <= hour < 24 ==> InWindow(hour, r)
    ensures forall e :: 0 <= hour < 24 && InWindow(hour, e) ==> e == r
  {
    if hour >= 6 && hour < 12 then Alert
    else if hour >= 12 && hour < 17 then Quiet
    else if hour >= 17 && hour < 21 then Warm
    else Slow
  }

  // ---------------------------------------------------------------------
  // The documented schedule, as an independent definition
  // ---------------------------------------------------------------------

  /** The window the documentation gives each tier, as [start, end) on a
      24-hour clock; the night window wraps past midnight. */
  function WindowStart(e: Energy): nat {
    match e
    case Alert => 6
    case Quiet => 12
    case Warm => 17
    case Slow => 21
  }

  function WindowEnd(e: Energy): nat {
    match e
    case Alert => 12
    case Quiet => 17
    case Warm => 21
    case Slow => 6
  }

  /** `hour` lies in the tier's window, counting across midnight when the
      window wraps. */
  predicate InWindow(hour: int, e: Energy) {
    var a := WindowStart(e);
    var b := WindowEnd(e);
    if a <= b then a <= hour < b else hour >= a || hour < b
  }

  /** On every hour of the day the rule chain picks the tier whose
      documented window holds the hour, and no other tier's window holds
      it. */
  lemma EnergyMatchesSchedule(hour: int, e: Energy)
    requires 0 <= hour < 24
    ensures InWindow(hour, e) <==> EnergyLevel(hour) == e
  {
  }

  /** The rule chain in its own terms, one tier at a time. */
  lemma EnergyBands(hour: int)
    requires 0 <= hour < 24
    ensures EnergyLevel(hour) == Alert <==> 6 <= hour <= 11
    ensures EnergyLevel(hour) == Quiet <==> 12 <= hour <= 16
    ensures EnergyLevel(hour) == Warm <==> 17 <= hour <= 20
    ensures EnergyLevel(hour) == Slow <==> hour <= 5 || 21 <= hour
  {
  }

  // ---------------------------------------------------------------------
  // getTimeBasedMessage
  // ---------------------------------------------------------------------

  const EnergyLabel: string := "Energy: "
  const MoodLabel: string := ", Mood: "

  /** `getTimeBasedMessage(mood)` at the given hour. */
  function TimeBasedMessage(hour: int, mood: string): (m: string)
    ensures |m| == |EnergyLabel| + |EnergyLevel(hour).Name()| + |MoodLabel| + |mood|
    ensures m[..|EnergyLabel|] == EnergyLabel
    ensures m[|m| - |mood|..] == mood
  {
    EnergyLabel + EnergyLevel(hour).Name() + MoodLabel + mood
  }

  /** The tier a message names, told apart by its first letter. */
  function TierFromInitial(c: char): Option<Energy> {
    match c
    case 'a' => Some(Alert)
    case 'q' => Some(Quiet)
    case 'w' => Some(Warm)
    case 's' => Some(Slow)
    case _ => None
  }

  /** Read a message back into its tier and mood. */
  function ParseMessage(m: string): Option<(Energy, string)> {
    if |m| <= |EnergyLabel| then None
    else match TierFromInitial(m[|EnergyLabel|])
      case None => None
      case Some(e) =>
        var start := |EnergyLabel| + |e.Name()| + |MoodLabel|;
        if start <= |m| && m[..start] == EnergyLabel + e.Name() + MoodLabel then Some((e, m[start..]))
        else None
  }

  /** A message determines the tier and the mood it was built from. */
  lemma MessageRoundTrip(hour: int, mood: string)
    ensures ParseMessage(TimeBasedMessage(hour, mood)) == Some((EnergyLevel(hour), mood))
  {
    var e := EnergyLevel(hour);
    var m := TimeBasedMessage(hour, mood);
    var start := |EnergyLabel| + |e.Name()| + |MoodLabel|;
    assert m[|EnergyLabel|] == e.Name()[0];
    assert m[..start] == EnergyLabel + e.Name() + MoodLabel;
    assert m[start..] == mood;
  }

  /** Hence two messages agree only when their tiers and moods agree. */
  lemma MessageInjective(h1: int, m1: string, h2: int, m2: string)
    requires TimeBasedMessage(h1, m1) == TimeBasedMessage(h2, m2)
    ensures EnergyLevel(h1) == EnergyLevel(h2) && m1 == m2
  {
    MessageRoundTrip(h1, m1);
    MessageRoundTrip(h2, m2);
  }
}

=== FILE: tts.dfy ===
/** Text to speech (src/renderer/src/hooks/useTTS.js): choosing a voice
    from the list the browser offers, and the effect of `speak` and `stop`
    on the speech queue and the `isSpeaking` flag. Audio playback is the
    browser's and is not modelled; the queue stands for what the browser's
    synthesiser holds. */
module Tts {

  import opened Optional
  import opened Strings

  /** A synthesiser voice; only its name matters here. */
  datatype Voice = Voice(name: string)

  /** The voice's name contains the fragment of a preferred voice: Zira on
      Windows, Samantha on macOS, Google US English in Chrome. */
  predicate IsPreferred(v: Voice) {
    Contains(v.name, "Zira") || Contains(v.name, "Samantha") || Contains(v.name, "Google US English")
  }

  /** `available.find(isPreferred)`, as the index found. */
  function FirstPreferred(voices: seq<Voice>): (r: Option<nat>)
    ensures r.Some? ==> r.value < |voices| && IsPreferred(voices[r.value])
    ensures r.Some? ==> forall j :: 0 <= j < r.value ==> !IsPreferred(voices[j])
    ensures r.None? <==> forall j :: 0 <= j < |voices| ==> !IsPreferred(voices[j])
    decreases |voices|
  {
    if |voices| == 0 then None
    else if IsPreferred(voices[0]) then Some(0)
    else match FirstPreferred(voices[1..])
      case None => None
      case Some(k) => Some(k + 1)
  }

  /** `loadVoices`' choice: the first preferred voice, else the first voice,
      else none. */
  function SelectVoice(available: seq<Voice>): (r: Option<Voice>)
    ensures r.None? <==> available == []
    ensures r.Some? ==> r.value in available
  {
    match FirstPreferred(available)
    case Some(i) => Some(available[i])
    case None => if |available| > 0 then Some(available[0]) else None
  }

  /** The selected voice is preferred exactly when some voice is, and then
      it is the first such voice in list order. */
  lemma SelectionPrefersFirstMatch(available: seq<Voice>)
    ensures (exists j :: 0 <= j < |available| && IsPreferred(available[j])) <==>
      (SelectVoice(available).Some? && IsPreferred(SelectVoice(available).value))
    ensures forall i :: 0 <= i < |available| && IsPreferred(available[i]) ==>
      (forall j :: 0 <= j < i ==> !IsPreferred(available[j])) ==> SelectVoice(available) == Some(available[i])
  {
    match FirstPreferred(available)
    case Some(k) =>
      forall i | 0 <= i < |available| && IsPreferred(available[i])
        && (forall j :: 0 <= j < i ==> !IsPreferred(available[j]))
        ensures i == k
      {
        assert !(i < k) && !(k < i);
      }
    case None =>
  }

  /** Without a preferred voice, the first voice in the list is used. */
  lemma FallsBackToFirst(available: seq<Voice>)
    requires |available| > 0
    requires forall j :: 0 <= j < |available| ==> !IsPreferred(available[j])
    ensures SelectVoice(available) == Some(available[0])
  {
  }

  // ---------------------------------------------------------------------
  // speak / stop
  // ---------------------------------------------------------------------

  /** An utterance as queued: the text, the voice (when one is selected),
      and its pitch, rate and volume. */
  datatype Utterance = Utterance(text: string, voice: Option<Voice>, pitch: real, rate: real, volume: real)

  /** The hook's state: the selected voice, the speaking flag, and the
      synthesiser's queue. */
  datatype Speech = Speech(selected: Option<Voice>, isSpeaking: bool, queue: seq<Utterance>)

  /** `speak(text)`: nothing for a falsy text; otherwise cancel whatever is
      queued and queue one utterance. `isSpeaking` only changes when the
      utterance starts or ends. */
  function Speak(s: Speech, text: Option<string>): (r: Speech)
    ensures !Truthy(text) ==> r == s
    ensures Truthy(text) ==> |r.queue| == 1 && r.queue[0].text == text.value
    ensures r.isSpeaking == s.isSpeaking && r.selected == s.selected
  {
    if !Truthy(text) then s
    else
      var cancelled := Cancel(s);
      cancelled.(queue := cancelled.queue + [Utterance(text.value, s.selected, 1.1, 1.0, 1.0)])
  }

  /** `speechSynthesis.cancel()` drops every queued utterance and touches
      neither the flag nor the voice. */
  function Cancel(s: Speech): (r: Speech)
    ensures r.queue == []
    ensures r.isSpeaking == s.isSpeaking && r.selected == s.selected
  {
    s.(queue := [])
  }

  /** `stop()`: cancel, and clear the flag. */
  function Stop(s: Speech): (r: Speech)
    ensures !r.isSpeaking && r.queue == []
    ensures r.selected == s.selected
  {
    Cancel(s).(isSpeaking := false)
  }

  /** The utterance's `onstart`, and its `onend` / `onerror`. */
  function OnStart(s: Speech): (r: Speech)
    ensures r.isSpeaking
    ensures r.queue == s.queue && r.selected == s.selected
  {
    s.(isSpeaking := true)
  }

  function OnEnd(s: Speech): (r: Speech)
    ensures !r.isSpeaking
    ensures r.queue == s.queue && r.selected == s.selected
  {
    s.(isSpeaking := false)
  }

  /** What `speak` queues carries the selected voice and the companion's
      pitch 1.1, rate 1.0 and volume 1.0. */
  lemma SpeakQueuesOnlyNewUtterance(s: Speech, text: string)
    requires text != ""
    ensures Speak(s, Some(text)).queue == [Utterance(text, s.selected, 1.1, 1.0, 1.0)]
  {
  }

  /** Speaking twice keeps only the second utterance: the first is
      cancelled. */
  lemma SpeakReplaces(s: Speech, a: string, b: string)
    requires a != "" && b != ""
    ensures Speak(Speak(s, Some(a)), Some(b)) == Speak(s, Some(b))
  {
  }

  /** After `stop` the flag is false whatever happened before, and stopping
      twice is stopping once. */
  lemma StopSilences(s: Speech)
    ensures !Stop(s).isSpeaking
    ensures Stop(Stop(s)) == Stop(s)
    ensures Stop(OnStart(s)) == Stop(s)
  {
  }

  /** The flag follows the utterance's events. */
  lemma FlagFollowsEvents(s: Speech)
    ensures OnStart(s).isSpeaking && !OnEnd(OnStart(s)).isSpeaking
  {
  }
}

=== FILE: voice_control.dfy ===
/** The command classifier run on every final speech-recognition result
    (`recognition.onresult` in src/renderer/src/hooks/useVoiceControl.js).
    The transcript is trimmed and lower-cased, then checked against ordered
    keyword rules; the first rule that matches decides the one command handed
    to the `onCommand` callback, and a transcript no rule matches is ignored.
    The recogniser's lifecycle (start, auto-restart, errors) is not modelled. */
module VoiceControl {

  import opened Optional
  import opened Strings

  /** The commands the classifier can emit. */
  datatype Command = Talk | Work | Normal | Hide | Vision | Open(app: string)

  /** The string passed to `onCommand` for each command. */
  function Wire(c: Command): string {
    match c
    case Talk => "talk"
    case Work => "work"
    case Normal => "normal"
    case Hide => "hide"
    case Vision => "vision"
    case Open(app) => "open:" + app
  }

  /** Keyword groups, in the order the rules are tried. */
  const TalkWords: seq<string> := ["talk", "chat"]
  const WorkWords: seq<string> := ["work", "focus", "quiet"]
  const NormalWords: seq<string> := ["normal", "idle"]
  const HideWords: seq<string> := ["hide", "minimize"]
  const VisionWords: seq<string> := ["look", "see", "vision", "watch"]

  /** Some word of `words` occurs in `t`. */
  predicate ContainsAny(t: string, words: seq<string>)
    decreases |words|
  {
    |words| > 0 && (Contains(t, words[0]) || ContainsAny(t, words[1..]))
  }

  lemma {:induction false} ContainsAnyMeans(t: string, words: seq<string>)
    ensures ContainsAny(t, words) <==> exists i :: 0 <= i < |words| && Contains(t, words[i])
    decreases |words|
  {
    if |words| > 0 {
      ContainsAnyMeans(t, words[1..]);
      if ContainsAny(t, words[1..]) {
        var i :| 0 <= i < |words[1..]| && Contains(t, words[1..][i]);
        assert Contains(t, words[i + 1]);
      }
      if exists i :: 0 <= i < |words| && Contains(t, words[i]) {
        var i :| 0 <= i < |words| && Contains(t, words[i]);
        if i > 0 {
          assert words[1..][i - 1] == words[i];
        }
      }
    }
  }

  /** No word of `words` occurs in `t` when each word holds a character
      (`missing[i]` for `words[i]`) that `t` lacks. */
  lemma {:induction false} NoWordContained(t: string, words: seq<string>, missing: string)
    requires |missing| == |words|
    requires forall i :: 0 <= i < |words| ==> missing[i] in words[i] && missing[i] !in t
    ensures !ContainsAny(t, words)
    decreases |words|
  {
    if |words| > 0 {
      MissingCharNotContained(t, words[0], missing[0]);
      NoWordContained(t, words[1..], missing[1..]);
    }
  }

  /** Some keyword rule matches `t`. */
  predicate AnyKeyword(t: string) {
    || ContainsAny(t, TalkWords) || ContainsAny(t, WorkWords) || ContainsAny(t, NormalWords)
    || ContainsAny(t, HideWords) || ContainsAny(t, VisionWords)
  }

  predicate HasLaunchPrefix(t: string) {
    StartsWith(t, "open ") || StartsWith(t, "launch ")
  }

  /** The application name: the first "open " removed, then the first
      "launch " removed from what is left, then trimmed. */
  function AppName(t: string): string {
    Trim(ReplaceFirst(ReplaceFirst(t, "open ", ""), "launch ", ""))
  }

  /** The rule chain applied to an already normalised transcript. */
  function Classify(t: string): (r: Option<Command>)
    ensures r == Some(Talk) <==> ContainsAny(t, TalkWords)
    ensures r == Some(Work) <==> !ContainsAny(t, TalkWords) && ContainsAny(t, WorkWords)
    ensures r == Some(Normal) <==>
      !ContainsAny(t, TalkWords) && !ContainsAny(t, WorkWords) && ContainsAny(t, NormalWords)
    ensures r == Some(Hide) <==>
      && !ContainsAny(t, TalkWords) && !ContainsAny(t, WorkWords) && !ContainsAny(t, NormalWords)
      && ContainsAny(t, HideWords)
    ensures r == Some(Vision) <==>
      && !ContainsAny(t, TalkWords) && !ContainsAny(t, WorkWords) && !ContainsAny(t, NormalWords)
      && !ContainsAny(t, HideWords) && ContainsAny(t, VisionWords)
    ensures (r.Some? && r.value.Open?) <==> !AnyKeyword(t) && HasLaunchPrefix(t) && AppName(t) != ""
    ensures r.Some? && r.value.Open? ==> r.value.app == AppName(t) && r.value.app != ""
    ensures r.None? <==> !AnyKeyword(t) && (!HasLaunchPrefix(t) || AppName(t) == "")
  {
    if Contains(t, "talk") || Contains(t, "chat") then Some(Talk)
    else if Contains(t, "work") || Contains(t, "focus") || Contains(t, "quiet") then Some(Work)
    else if Contains(t, "normal") || Contains(t, "idle") then Some(Normal)
    else if Contains(t, "hide") || Contains(t, "minimize") then Some(Hide)
    else if Contains(t, "look") || Contains(t, "see") || Contains(t, "vision") || Contains(t, "watch") then Some(Vision)
    else if StartsWith(t, "open ") || StartsWith(t, "launch ") then
      var app := AppName(t);
      if app != "" then Some(Open(app)) else None
    else None
  }

  /** The transcript as the recogniser's handler sees it. */
  function Normalise(raw: string): string {
    ToLower(Trim(raw))
  }

  /** What one recognition result does: the normalised transcript becomes
      `lastTranscript`, and at most one command is emitted. */
  datatype Recognised = Recognised(lastTranscript: string, emitted: Option<Command>)

  /** The transcript kept is the lower-cased transcript with its whitespace
      padding removed, so it neither starts nor ends with whitespace; the
      command emitted is the first matching rule of the table; and an
      `open:` command is emitted exactly when no keyword matches and the
      transcript starts with a launch word. */
  function OnResult(raw: string): (r: Recognised)
    ensures r.lastTranscript == Trim(ToLower(raw))
    ensures var t := r.lastTranscript; t == [] || (!IsWhitespace(t[0]) && !IsWhitespace(t[|t| - 1]))
    ensures r.emitted == ClassifyByTable(r.lastTranscript)
    ensures (r.emitted.Some? && r.emitted.value.Open?) <==>
      !AnyKeyword(r.lastTranscript) && HasLaunchPrefix(r.lastTranscript)
  {
    var t := Normalise(raw);
    LowerTrimCommute(raw);
    NormalisedIsTrimmed(raw);
    ClassifyIsFirstMatch(t);
    LaunchRuleEmitsIff(raw);
    Recognised(t, Classify(t))
  }

  // ---------------------------------------------------------------------
  // The rules as a table
  // ---------------------------------------------------------------------

  /** A keyword rule: any of `words` selects `command`. */
  datatype Rule = Rule(words: seq<string>, command: Command)

  /** The keyword rules in priority order. */
  const KeywordRules: seq<Rule> := [
    Rule(TalkWords, Talk), Rule(WorkWords, Work), Rule(NormalWords, Normal),
    Rule(HideWords, Hide), Rule(VisionWords, Vision)
  ]

  /** The command of the first rule that matches. */
  function FirstRule(rules: seq<Rule>, t: string): Option<Command>
    decreases |rules|
  {
    if |rules| == 0 then None
    else if ContainsAny(t, rules[0].words) then Some(rules[0].command)
    else FirstRule(rules[1..], t)
  }

  /** Table-driven reading of the classifier: the first keyword rule that
      matches wins, and only when none does is the launch prefix tried. */
  function ClassifyByTable(t: string): Option<Command> {
    match FirstRule(KeywordRules, t)
    case Some(c) => Some(c)
    case None =>
      if HasLaunchPrefix(t) && AppName(t) != "" then Some(Open(AppName(t))) else None
  }

  lemma ClassifyIsFirstMatch(t: string)
    ensures Classify(t) == ClassifyByTable(t)
  {
    var r0 := KeywordRules;
    var r1 := [Rule(WorkWords, Work), Rule(NormalWords, Normal), Rule(HideWords, Hide), Rule(VisionWords, Vision)];
    var r2 := [Rule(NormalWords, Normal), Rule(HideWords, Hide), Rule(VisionWords, Vision)];
    var r3 := [Rule(HideWords, Hide), Rule(VisionWords, Vision)];
    var r4 := [Rule(VisionWords, Vision)];
    assert r0[1..] == r1 && r1[1..] == r2 && r2[1..] == r3 && r3[1..] == r4 && r4[1..] == [];
    assert FirstRule(r4, t) == if ContainsAny(t, VisionWords) then Some(Vision) else None;
    assert FirstRule(r3, t) == if ContainsAny(t, HideWords) then Some(Hide) else FirstRule(r4, t);
    assert FirstRule(r2, t) == if ContainsAny(t, NormalWords) then Some(Normal) else FirstRule(r3, t);
    assert FirstRule(r1, t) == if ContainsAny(t, WorkWords) then Some(Work) else FirstRule(r2, t);
    assert FirstRule(r0, t) == if ContainsAny(t, TalkWords) then Some(Talk) else FirstRule(r1, t);
  }

  // ---------------------------------------------------------------------
  // Normalisation
  // ---------------------------------------------------------------------

  /** Classification ignores letter case: transcripts that agree once
      lower-cased give the same result. */
  lemma OnResultIgnoresCase(raw1: string, raw2: string)
    requires ToLower(raw1) == ToLower(raw2)
    ensures OnResult(raw1) == OnResult(raw2)
  {
    LowerTrimCommute(raw1);
    LowerTrimCommute(raw2);
  }

  /** Classification ignores surrounding whitespace. */
  lemma OnResultIgnoresPadding(a: string, raw: string, b: string)
    requires AllWhitespace(a) && AllWhitespace(b)
    ensures OnResult(a + raw + b) == OnResult(raw)
  {
    TrimIgnoresPadding(a, raw, b);
  }

  /** A normalised transcript neither starts nor ends with whitespace. */
  lemma NormalisedIsTrimmed(raw: string)
    ensures var t := Normalise(raw); t == [] || (!IsWhitespace(t[0]) && !IsWhitespace(t[|t| - 1]))
  {
    var r := Trim(raw);
    if r != [] {
      LowerKeepsWhitespace(r[0]);
      LowerKeepsWhitespace(r[|r| - 1]);
    }
  }

  /** On a normalised transcript the empty-name guard never fires: a
      transcript that reaches the launch rule always yields a non-empty
      application name ending in the transcript's last character. */
  lemma AppNameNeverEmpty(t: string)
    requires HasLaunchPrefix(t)
    requires |t| > 0 && !IsWhitespace(t[|t| - 1])
    ensures AppName(t) != ""
  {
    var u := ReplaceFirst(t, "open ", "");
    DeleteKeepsLastChar(t, "open ");
    DeleteKeepsLastChar(u, "launch ");
    var w := ReplaceFirst(u, "launch ", "");
    TrimKeepsLastChar(w);
  }

  /** So for a recognition result, the launch rule emits exactly when no
      keyword matches and the transcript starts with "open " or "launch ". */
  lemma LaunchRuleEmitsIff(raw: string)
    ensures var t := Normalise(raw);
      (Classify(t).Some? && Classify(t).value.Open?) <==> !AnyKeyword(t) && HasLaunchPrefix(t)
  {
    var t := Normalise(raw);
    NormalisedIsTrimmed(raw);
    if HasLaunchPrefix(t) {
      AppNameNeverEmpty(t);
    }
  }

  /** "open " or "launch " followed by a name that itself holds neither
      phrase yields that name, trimmed. */
  lemma AppNameAfterOpen(x: string)
    requires !Contains(x, "open ") && !Contains(x, "launch ")
    ensures AppName("open " + x) == Trim(x)
  {
    var s := "open " + x;
    assert StartsWith(s, "open ");
    PrefixIsFirstOccurrence(s, "open ");
    assert s[5..] == x;
    assert ReplaceFirst(s, "open ", "") == x;
    assert ReplaceFirst(x, "launch ", "") == x;
  }

  lemma AppNameAfterLaunch(x: string)
    requires !Contains(x, "open ") && !Contains(x, "launch ")
    ensures AppName("launch " + x) == Trim(x)
  {
    var s := "launch " + x;
    assert forall j :: 0 <= j < 7 ==> s[j] != 'o';
    if Contains(s, "open ") {
      var j := IndexOf(s, "open ").value;
      assert s[j..j + 5][0] == 'o';
      assert s[j..j + 5] == x[j - 7..j - 7 + 5];
      assert OccursAt(x, "open ", j - 7);
    }
    assert ReplaceFirst(s, "open ", "") == s;
    assert StartsWith(s, "launch ");
    PrefixIsFirstOccurrence(s, "launch ");
    assert s[7..] == x;
    assert ReplaceFirst(s, "launch ", "") == x;
  }

  // ---------------------------------------------------------------------
  // Examples
  // ---------------------------------------------------------------------

  /** Letters that together meet every keyword: each keyword holds at least
      one of them. */
  const KeywordLetters: string := "kcwfqrihmlsv"

  /** A transcript without any of those letters matches no keyword rule. */
  lemma NoKeywordLetters(t: string)
    requires forall j :: 0 <= j < |t| ==> t[j] !in KeywordLetters
    ensures !AnyKeyword(t)
  {
    assert !ContainsAny(t, TalkWords) by { NoWordContained(t, TalkWords, "kc"); }
    assert !ContainsAny(t, WorkWords) by { NoWordContained(t, WorkWords, "wfq"); }
    assert !ContainsAny(t, NormalWords) by { NoWordContained(t, NormalWords, "ri"); }
    assert !ContainsAny(t, HideWords) by { NoWordContained(t, HideWords, "hm"); }
    assert !ContainsAny(t, VisionWords) by { NoWordContained(t, VisionWords, "lsvw"); }
  }

  /** "open <name>" launches `name` when the name holds no keyword letter and
      no space: the launch rule is reached and the name comes through whole. */
  lemma OpenPlainName(x: string)
    requires x != [] && !IsWhitespace(x[0]) && !IsWhitespace(x[|x| - 1])
    requires forall j :: 0 <= j < |x| ==> x[j] !in KeywordLetters && x[j] != ' '
    ensures Classify("open " + x) == Some(Open(x))
  {
    OpenPlainNameNoKeyword(x);
    OpenPlainNameAppName(x);
    assert StartsWith("open " + x, "open ");
  }

  lemma OpenPlainNameNoKeyword(x: string)
    requires forall j :: 0 <= j < |x| ==> x[j] !in KeywordLetters
    ensures !AnyKeyword("open " + x)
  {
    var t := "open " + x;
    assert forall j :: 0 <= j < |t| ==> t[j] !in KeywordLetters by {
      assert forall j :: 5 <= j < |t| ==> t[j] == x[j - 5];
    }
    NoKeywordLetters(t);
  }

  lemma OpenPlainNameAppName(x: string)
    requires x != [] && !IsWhitespace(x[0]) && !IsWhitespace(x[|x| - 1])
    requires forall j :: 0 <= j < |x| ==> x[j] != ' '
    ensures AppName("open " + x) == x
  {
    MissingCharNotContained(x, "open ", ' ');
    MissingCharNotContained(x, "launch ", ' ');
    AppNameAfterOpen(x);
    TrimUnique(x, "", x, "");
  }

  /** "Open Notepad " as spoken launches Notepad. */
  lemma OpenNotepadExample(raw: string)
    requires raw == "Open Notepad "
    ensures OnResult(raw).emitted == Some(Open("notepad"))
  {
    NotepadNormalised(raw);
    OpenPlainName("notepad");
  }

  lemma NotepadNormalised(raw: string)
    requires raw == "Open Notepad "
    ensures Normalise(raw) == "open " + "notepad"
  {
    NotepadTrimmed(raw, "Open Notepad");
    NotepadLowered("Open Notepad", "open " + "notepad");
  }

  lemma NotepadTrimmed(raw: string, r: string)
    requires raw == "Open Notepad " && r == "Open Notepad"
    ensures Trim(raw) == r
  {
    assert raw == [] + r + " ";
    TrimUnique(raw, [], r, " ");
  }

  lemma NotepadLowered(s: string, l: string)
    requires s == "Open Notepad" && l == "open " + "notepad"
    ensures ToLower(s) == l
  {
    assert forall i :: 0 <= i < |s| ==> LowerChar(s[i]) == l[i];
  }

  /** Two keyword groups match; the earlier rule wins. */
  lemma QuietAndFocusExample(t: string)
    requires t == "please be quiet and focus"
    ensures Classify(t) == Some(Work)
  {
    MissingCharNotContained(t, "talk", 'k');
    MissingCharNotContained(t, "chat", 'h');
    assert OccursAt(t, "quiet", 10);
  }

  /** A bare "open" or "launch" launches nothing: normalisation strips the
      space the launch rule needs. */
  lemma BareLaunchWordIgnored(t: string)
    requires t == "open" || t == "launch"
    ensures !(Classify(t).Some? && Classify(t).value.Open?)
  {
    assert !StartsWith(t, "open ") by {
      if |t| >= 5 { assert t[4] != ' '; }
    }
    assert !StartsWith(t, "launch ");
  }
}
